=== FILE: README.md ===
# Sliding-puzzle solver in Dafny

A model of the solver core of a Java sliding-tile puzzle program (the 15- and
24-puzzle): the board class `PuzzleBoard` and the search engine
`PuzzleGraph`, with what their code promises stated as contracts and proved.

- **Boards** (`puzzle_board.dfy`) is the `size` x `size` grid with 0 for the
  blank. It covers:
  - the two constructors;
  - `findEmptySpace`, as a row-major scan that may fail;
  - `generateNeighbors`, as the list of boards obtained by sliding the blank
    up, down, left and right, skipping directions that leave the board;
  - `isSolved`, as the Java scan that stops at the bottom-right cell;
  - `equals`, which compares grids only.

  The board is an immutable value, so a neighbour never shares storage with
  its source and `generateNeighbors` leaves the receiver unchanged by
  construction.
- **SearchSpace** (`search_space.dfy`) is the implicit graph both searches
  explore. It has:
  - the slide relation (`IsSlide`), proved to agree with
    `generateNeighbors`; what one slide does to each cell is stated
    independently by `Boards.SlidOnce`, linked by `Boards.SlideIsSlidOnce`;
  - slide paths and reachability;
  - the `Outcome` a search returns in place of what the Java code prints;
  - the solver record with `setInitialState`.
- **Heuristics** (`heuristics.dfy`) holds the Manhattan distance, with Java's
  truncating `/` and `%` written out, and the zero function. It proves that
  one slide changes the Manhattan distance by exactly one, and from that that
  the distance is admissible.
- **BreadthFirstFacts** and **BreadthFirst** (`bfs_facts.dfy`, `bfs.dfy`)
  model `solveUsingBFS`. The neighbour loop is a pure function (`Discover`).
  The search loop is a method whose invariant (`Searching`) relates the
  FIFO queue, the order boards were enqueued in, their breadth-first depths,
  and the visited set keyed by grid value. BFS is proved to terminate: every
  iteration either shortens the queue or visits a new grid out of the finite
  set of rearrangements of the start grid's values.
- **AStarFacts** and **AStar** (`astar_facts.dfy`, `astar.dfy`) model
  `solveUsingAStar`:
  - the neighbour loop with strict-improvement relaxation (`Relax`),
    related to an order-free description of its result (`Relaxed`);
  - the poll of an entry of least `cost + heuristic`;
  - the loop invariant (`Exploring`), which says every recorded cost is the
    length of a slide path from the start; `Expand` states that one
    expansion never raises a recorded cost.

The Java `int[][]` is `seq<seq<int>>`. Java exceptions become values:
- a constructor given a negative size, too few rows or a short row returns
  `None`;
- `findEmptySpace` on a grid without a blank returns `None`;
- a search that polls a board without a blank ends with `NoEmptySpace`.

The BFS code leaves the start board's cost as it is. Only A* resets it to 0
(PuzzleGraph.java:101). A* does not skip stale open-set entries: a board
polled after a cheaper copy of its grid was recorded is expanded again
(PuzzleGraph.java:105-127). The model follows the code in both.

## Model

| member | source | states |
|---|---|---|
| Boards.New | PuzzleBoard.java:9-15 | The array constructor succeeds exactly when the size is non-negative and there are at least `size` rows of at least `size` cells. The board then holds the leading `size` x `size` cells, with cost 0. |
| Boards.Copy | PuzzleBoard.java:17-23 | The copy constructor gives a board of the same size, equal to its source, with cost 0. |
| Boards.Equal | PuzzleBoard.java:120-128 | By definition, two boards are equal when their grids are equal; the cost plays no part. |
| Boards.EqualIffSameCells | PuzzleBoard.java:120-128 | Two valid boards are equal exactly when they have the same size and agree on every cell, whatever their costs. |
| Boards.IsValidPosition | PuzzleBoard.java:69-71 | By definition, a position is on an `n` x `n` board when both its row and its column lie in 0..n-1. |
| Boards.FindFrom | PuzzleBoard.java:47-53 | The row-major scan from (i, j) returns only positions on the board that hold 0. |
| Boards.FindFromIsFirst | PuzzleBoard.java:47-53 | The scan from (i, j) finds nothing exactly when no cell from (i, j) on is blank. Otherwise it returns a blank at or after (i, j) with no blank between. |
| Boards.FindEmptySpace | PuzzleBoard.java:46-55 | A blank is found exactly when the grid holds a 0, and the position returned is on the board and holds 0. |
| Boards.FindEmptySpaceIsFirst | PuzzleBoard.java:46-55 | findEmptySpace fails exactly when no cell is 0. Otherwise no cell before the returned one in row-major order is 0. |
| Boards.FindUniqueBlank | PuzzleBoard.java:46-55 | On a grid with exactly one blank, findEmptySpace returns that blank. |
| Boards.Directions | PuzzleBoard.java:29 | The directions are tried in the order up, down, left, right. |
| Boards.AllDirectionsListed | PuzzleBoard.java:29 | Every direction is among those generateNeighbors tries. |
| Boards.Step | PuzzleBoard.java:32-33 | `newX`, `newY` is the cell adjacent to the blank in the given direction: up and down keep the column, left and right keep the row, and up and left decrease a coordinate. |
| Boards.ValidMoves | PuzzleBoard.java:29-35 | A direction is kept exactly when it is listed and its target cell is in bounds. Kept directions stay in generation order. |
| Boards.Slide | PuzzleBoard.java:36-39 | Swapping the blank with a tile keeps the grid `n` x `n`. Which cells change is stated by Boards.SlideIsSlidOnce. |
| Boards.Move | PuzzleBoard.java:36-39 | Each neighbour is a valid board of the receiver's size with cost 0, as the array constructor leaves it. |
| Boards.MoveAll | PuzzleBoard.java:31-41 | The loop builds one board per listed direction, in the listed order, the k-th being the blank slid in the k-th direction. |
| Boards.Neighbors | PuzzleBoard.java:25-44 | generateNeighbors fails exactly when findEmptySpace does. Every neighbour is a valid board of the same size with cost 0. |
| Boards.NeighborsIgnoreCost | PuzzleBoard.java:25-44 | The neighbours of a board depend on its grid only, not on its cost. |
| Boards.NeighborsInOrder | PuzzleBoard.java:29-41 | There is one neighbour per in-bounds direction, in the order up, down, left, right. Each is the receiver with the blank and one adjacent tile swapped. |
| Boards.SlideIsSlidOnce | PuzzleBoard.java:36-39 | A slide moves the adjacent tile into the blank and blanks its cell. Every other cell is unchanged and the multiset of values is preserved. |
| Boards.MoveIsNeighbor | PuzzleBoard.java:29-41 | Sliding any in-bounds tile into the blank findEmptySpace locates gives one of the neighbours. |
| Boards.NeighborGridIsSlide | PuzzleBoard.java:29-41 | Every neighbour grid is a slide of an in-bounds tile into the blank findEmptySpace locates. |
| Boards.MovesCount | PuzzleBoard.java:29-35 | The number of moves is one per side of the board the blank is not on. |
| Boards.NeighborCount | PuzzleBoard.java:29-41 | On boards of size at least 2 there are 2 neighbours from a corner, 4 from the interior and 3 from the rest of the edge. |
| Boards.SlideKeepsOneBlank | PuzzleBoard.java:36-39 | On a grid with one blank, a slide leaves exactly one blank: the cell the tile came from. |
| Boards.SlideUndo | PuzzleBoard.java:36-39 | Sliding the tile back restores the original grid. |
| Boards.SolvedGridCells | PuzzleBoard.java:104-117 | The solved grid holds 1, 2, ... in row-major order, and the bottom-right cell is 0. |
| Boards.ScanSolved | PuzzleBoard.java:104-117 | The isSolved loop: cells are compared in row-major order with 1, 2, ..., except that the bottom-right cell must be 0; the first mismatch gives false. |
| Boards.ScanSolvedMatches | PuzzleBoard.java:104-117 | The isSolved scan from (i, j) succeeds exactly when every cell from (i, j) on holds its solved value. |
| Boards.IsSolved | PuzzleBoard.java:103-118 | isSolved holds exactly when the grid is the solved grid. |
| Boards.MisplacedBlankIsUnsolved | PuzzleBoard.java:107-113 | A blank anywhere but the bottom-right cell makes the board unsolved. |
| SearchSpace.NeighborIsSlide | PuzzleBoard.java:25-44 | Every grid generateNeighbors produces is one slide of the receiver. |
| SearchSpace.SlideIsNeighbor | PuzzleBoard.java:25-44 | Every slide of the receiver is among the grids generateNeighbors produces. |
| SearchSpace.SlideIffNeighbor | PuzzleBoard.java:25-44 | On a well-shaped grid, the slide rule and generateNeighbors agree in both directions. |
| SearchSpace.SlideKeepsShapeAndCells | PuzzleBoard.java:36-39 | A slide target has the same shape and the same multiset of values as its source. |
| SearchSpace.SlideTargetHasBlank | PuzzleBoard.java:36-39 | A slide target has a blank, so generateNeighbors never fails on it. |
| SearchSpace.SlideBack | PuzzleBoard.java:29-41 | On a grid with one blank, the original grid is a slide of each of its slides. |
| SearchSpace.NeighborsReversible | PuzzleBoard.java:29-41 | On a board with one blank, every neighbour has one blank and has the receiver among its own neighbours. |
| SearchSpace.ClosedSetHoldsReachable | PuzzleGraph.java:82-90 | A set that holds the start and is closed under slides holds every grid reachable from the start. |
| SearchSpace.SetInitialState | PuzzleGraph.java:11-13 | setInitialState makes the given board the start of the next search. |
| Heuristics.JavaDiv | PuzzleGraph.java:25 | Java's `/` by a positive divisor rounds toward zero. For a dividend a >= 0 the quotient q is the largest with size * q <= a, and q >= 0. For a < 0, size * q - size < a <= size * q <= 0. |
| Heuristics.JavaRem | PuzzleGraph.java:26 | Java's `%` by a positive divisor has the sign of the dividend and is smaller in magnitude than the divisor. |
| Heuristics.Abs | PuzzleGraph.java:27 | `Math.abs` returns the argument or its negation, whichever is non-negative. |
| Heuristics.TileDistance | PuzzleGraph.java:23-27 | The term of one cell is non-negative, and 0 for the blank. |
| Heuristics.RowDistance | PuzzleGraph.java:22-29 | The sum of the terms of one row from column `j` on is non-negative, and 0 when those cells are all blank. |
| Heuristics.GridDistance | PuzzleGraph.java:21-30 | The sum of the terms of rows `i` onwards is non-negative. Its value on the solved grid and under a slide are stated by Heuristics.ManhattanOfSolved and Heuristics.ManhattanSlide. |
| Heuristics.ZeroFunction | PuzzleGraph.java:35 | zeroFunction estimates 0 for every board, so A* run with it orders the open set by cost alone. |
| Heuristics.DivModOfCell | PuzzleGraph.java:25-26 | For a row-major index, Java's truncating `/` and `%` by the size recover the row and the column. |
| Heuristics.ManhattanDistance | PuzzleGraph.java:16-32 | The Manhattan distance is non-negative and is 0 on a solved board. |
| Heuristics.Estimate | PuzzleGraph.java:16-35 | Both heuristics are non-negative and 0 on a solved board. zeroFunction is 0 on every board. |
| Heuristics.ManhattanOfSolved | PuzzleGraph.java:21-30 | Every tile of the solved grid contributes 0. |
| Heuristics.ManhattanSlide | PuzzleGraph.java:23-27 | Sliding a numbered tile into the blank changes the Manhattan distance by exactly +1 or -1. |
| Heuristics.ManhattanSlideStep | PuzzleGraph.java:23-27 | On a grid with one blank, a slide keeps one blank and changes the distance by exactly one. |
| Heuristics.ManhattanAlongPath | PuzzleGraph.java:16-32 | Along a slide path from a grid with one blank, the distance drops by at most the number of slides. |
| Heuristics.ManhattanAdmissible | PuzzleGraph.java:16-32 | On a board with one blank, the Manhattan distance is at most the length of any slide path to the solved grid. |
| BreadthFirstFacts.Discover | PuzzleGraph.java:82-87 | The neighbour loop enqueues at most one board per neighbour. What it enqueues and visits is stated in the four rows below. |
| BreadthFirstFacts.DiscoverVisited | PuzzleGraph.java:82-87 | After the neighbour loop, the visited set is the old one plus the grid of every neighbour. |
| BreadthFirstFacts.DiscoverAddsNew | PuzzleGraph.java:82-87 | Every enqueued board is a neighbour whose grid was not visited before the loop. |
| BreadthFirstFacts.DiscoverDistinct | PuzzleGraph.java:82-87 | No grid is enqueued twice by one run of the loop, even when two neighbours are equal. |
| BreadthFirstFacts.DiscoverAddsAll | PuzzleGraph.java:82-87 | Every neighbour whose grid was not visited is enqueued. |
| BreadthFirstFacts.VisitedFacts | PuzzleGraph.java:82-87 | After the loop, the visited set is exactly the old one plus the grids enqueued. |
| BreadthFirstFacts.ExpansionFacts | PuzzleGraph.java:82-87 | Enqueued grids are new, distinct, well-shaped, reachable in one more move, and have a blank. Every slide of the expanded grid is then visited. |
| BreadthFirstFacts.InitialFacts | PuzzleGraph.java:61-65 | With only the initial board queued and visited, the loop invariant holds. |
| BreadthFirstFacts.BelowFrontExpanded | PuzzleGraph.java:67-87 | Every grid reachable in fewer moves than the depth of the board at the front of the queue has been polled and expanded already. |
| BreadthFirstFacts.FrontVisited | PuzzleGraph.java:67-87 | Every grid reachable in no more moves than the depth of the board at the front of the queue is visited. |
| BreadthFirstFacts.ShortestStep | PuzzleGraph.java:82-86 | The boards enqueued from the front board get its depth plus one, and that is their least move count. A grid reachable in fewer moves would already have been visited. |
| BreadthFirstFacts.ExpandFacts | PuzzleGraph.java:67-87 | One iteration on an unsolved board keeps the loop invariant. It either shortens the queue without visiting anything or visits a new grid. |
| BreadthFirstFacts.ExhaustedFacts | PuzzleGraph.java:67-90 | When the queue empties, every visited grid was expanded, none is solved, and no grid reachable from the start is solved. |
| BreadthFirst.Expand | PuzzleGraph.java:68-87 | Polling an unsolved board with a blank and enqueueing its unvisited neighbours keeps the invariant and makes progress. |
| BreadthFirst.Search | PuzzleGraph.java:61-88 | The loop ends with the invariant holding and the queue empty or a solved or blank-less board at its front. |
| BreadthFirst.SolveUsingBFS | PuzzleGraph.java:57-91 | See the next three rows. The grids polled are distinct and no more numerous than the visited grids. Each comes with its depth: it is reachable in that many moves and in no fewer. Depths never decrease along the polling order, and only the last grid polled may be solved. |
| BreadthFirst.ReportSolved | PuzzleGraph.java:71-80 | A solved front board is reported with the number of boards polled, itself included. |
| BreadthFirst.ReportExhausted | PuzzleGraph.java:90 | "No solution" is reported only when no grid reachable from the start is solved. |
| BreadthFirst.ReportNoBlank | PuzzleGraph.java:82 | The missing-blank exception can only come from the first board. |
| AStarFacts.Priority | PuzzleGraph.java:97-98 | A board's priority is at least its cost. With zeroFunction it is the cost itself. |
| AStarFacts.Relax | PuzzleGraph.java:120-126 | The neighbour loop adds at most one board per neighbour to the open set. What it records and adds is stated in the rows below. |
| AStarFacts.RelaxCosts | PuzzleGraph.java:120-126 | The sequential loop leaves exactly the order-free map where each neighbour grid keeps the smaller of its recorded cost and the polled grid's cost plus one. |
| AStarFacts.RelaxedValues | PuzzleGraph.java:120-126 | No recorded cost goes up. Every entry is its old cost or the polled grid's cost plus one. |
| AStarFacts.RelaxInsertsImproved | PuzzleGraph.java:121-125 | A board added to the open set is a neighbour carrying the new cost. Its grid had no recorded cost or a strictly higher one. |
| AStarFacts.RelaxInsertsAll | PuzzleGraph.java:121-125 | Every neighbour whose grid gains from the new cost is added to the open set. |
| AStarFacts.RelaxMapFacts | PuzzleGraph.java:120-126 | After the loop the map covers the old grids and the neighbours, no cost has gone up, and the polled grid keeps its cost. |
| AStarFacts.RelaxOpenFacts | PuzzleGraph.java:121-125 | Each inserted board's cost equals its grid's entry in the updated map. |
| AStarFacts.RelaxFacts | PuzzleGraph.java:120-127 | The two rows above, for the neighbours generateNeighbors gives the polled board. |
| AStarFacts.ExploringInitially | PuzzleGraph.java:101-103 | Before the first poll, the map is {start: 0} with the start board open, and the invariant holds. |
| AStarFacts.ExploringStep | PuzzleGraph.java:106-127 | Expanding a polled board keeps the invariant. Recorded costs only go down, and each entry written is the polled grid's cost plus one. |
| AStarFacts.ExploringStopped | PuzzleGraph.java:105-130 | Every grid polled and expanded is recorded, not solved, and has all its neighbour grids recorded. With an empty open set, every recorded grid was polled and no grid reachable from the start is solved. A polled board's cost is a slide-path length. |
| AStarFacts.LastPollFacts | PuzzleGraph.java:105-109 | When the loop ends at a polled board, every grid polled before it was expanded, its own grid is recorded, and the boards left in the open set are sound and have priority no less than the polled one. |
| AStarFacts.Remove | PuzzleGraph.java:106 | Taking the polled entry out of the open set leaves every other entry, in its order, and nothing else. |
| AStar.PollMin | PuzzleGraph.java:97-107 | The polled entry has the least `cost + heuristic` of the open set. It is the leftmost such entry. |
| AStar.Expand | PuzzleGraph.java:106-127 | Expanding keeps the invariant. No recorded cost goes up, and each entry written is the polled grid's cost plus one. |
| AStar.Search | PuzzleGraph.java:105-128 | The loop ends with the open set empty, the fuel spent, or a polled board of least priority that is solved or lacks a blank. |
| AStar.SolveUsingAStar | PuzzleGraph.java:93-131 | Detailed below this table. |

`AStar.SolveUsingAStar` promises:
- The start board's cost is reset to 0 in the solver.
- Every recorded cost is the length of a slide path from the start.
- The processed count is at most the fuel.
- Every polled grid is recorded in the cost map. Every polled grid except a final solved or blank-less one was expanded: it is not solved and all its neighbour grids are recorded.
- The boards left in the open set are recorded, valid, and their costs are slide-path lengths.
- A solved outcome is the last grid polled. Its cost is a slide-path length no less than its recorded cost, and its priority (`cost + h`) is no more than that of any board left open.
- "No solution" is reported only with the open set empty, every recorded grid polled, and no reachable grid solved.
- The missing-blank exception is reported only for the start board, after one poll.
- Running out of fuel is reported only after exactly `fuel` polls.

## Left out

- Main.java: console input, random board shuffling, timing and printing are I/O around the core.
- `inadmissibleHeuristic` (PuzzleGraph.java:38-55): it uses `double`, `Math.sqrt` and `Math.pow`, which are floating point.
- Timing and console output in both searches, and `printBoard`. They are replaced by the returned `Outcome`.
- `hashCode`: a library hash. The model keys sets and maps by the grid value, which is what `equals` compares.
- `getSize`, `getTiles`, `getCost` and `setCost`: plain field access and update on the immutable board value.
- AStar.PollMin: Java's `PriorityQueue` breaks ties among equal priorities in an unspecified way. The model takes the leftmost entry of least priority, and the invariant does not depend on which one is taken.
- AStar.SolveUsingAStar: it runs with a `fuel` bound on expansions and can report `OutOfFuel`. Termination of A* with re-inserted entries is not proved. Its contract states what each poll leaves behind, and the least priority of the final poll, but not that every earlier poll took an entry of least priority at its time (AStar.PollMin states that for each poll); no history of the open set is kept.
- Path reconstruction and optimality of the reported move count. The code keeps no parent links, and a solved board's `cost` is only shown to be the length of some slide path, not the shortest.
- Heuristics.ManhattanDistance: it is computed over unbounded integers.
  - For tiles in 0..size*size-1, each term is at most 2 * (size - 1). The sum of the size * size terms therefore fits a Java `int` for every size up to 1000.
  - A hand-entered board (Main.java:59-67) accepts any `int` tiles. Near the `int` limits, `value - 1` (PuzzleGraph.java:25) wraps and the sum (line 27) can overflow. Java can then return a negative distance.
  - The model does not reproduce this, and its `r >= 0` does not hold in Java for such boards.
- 32-bit `int` costs and states-processed counts: they are unbounded integers in the model, which does not wrap them at 2^31.

=== FILE: astar.dfy ===
/**
  solveUsingAStar of PuzzleGraph.java: an open list ordered by cost plus
  heuristic estimate, and a map of the cheapest cost seen per grid. The
  first polled board that is solved ends the search.
 */
module AStar {
  import opened Grids
  import opened Boards
  import opened SearchSpace
  import opened Heuristics
  import opened AStarFacts

  /**
    The poll of the priority queue: an entry of least priority. Among equal
    priorities the leftmost, that is the earliest inserted, is chosen.
   */
  method PollMin(h: Heuristic, open: seq<PuzzleBoard>) returns (m: nat)
    requires open != [] && forall k :: 0 <= k < |open| ==> Valid(open[k])
    ensures m < |open|
    ensures forall k :: 0 <= k < |open| ==> Priority(h, open[m]) <= Priority(h, open[k])
    ensures forall k :: 0 <= k < m ==> Priority(h, open[m]) < Priority(h, open[k])
  {
    m := 0;
    var i := 1;
    while i < |open|
      invariant m < i <= |open|
      invariant forall k :: 0 <= k < i ==> Priority(h, open[m]) <= Priority(h, open[k])
      invariant forall k :: 0 <= k < m ==> Priority(h, open[m]) < Priority(h, open[k])
    {
      if Priority(h, open[i]) < Priority(h, open[m]) {
        m := i;
      }
      i := i + 1;
    }
  }

  /**
    The body of the search loop for a polled board that is not solved and
    has a blank: record it as processed and relax its neighbours.
   */
  method Expand(initial: PuzzleBoard, costSoFar: map<Grid, nat>, open: seq<PuzzleBoard>,
                ghost expanded: set<Grid>, trace: seq<Grid>, m: nat)
    returns (costSoFar': map<Grid, nat>, open': seq<PuzzleBoard>, ghost expanded': set<Grid>, trace': seq<Grid>)
    requires Exploring(initial, costSoFar, open, expanded, trace) && m < |open|
    requires !IsSolved(open[m]) && Neighbors(open[m]).Some?
    ensures Exploring(initial, costSoFar', open', expanded', trace')
    ensures trace' == trace + [open[m].tiles]
    ensures forall g :: g in costSoFar ==> g in costSoFar' && costSoFar'[g] <= costSoFar[g]
    ensures forall g :: g in costSoFar' ==>
              (g in costSoFar && costSoFar'[g] == costSoFar[g]) || costSoFar'[g] == costSoFar[open[m].tiles] + 1
  {
    var current := open[m];
    var r := Relax(costSoFar, current.tiles, Neighbors(current).value);
    ExploringStep(initial, costSoFar, open, expanded, trace, m, r);
    costSoFar' := r.costSoFar;
    open' := Remove(open, m) + r.inserted;
    expanded' := expanded + {current.tiles};
    trace' := trace + [current.tiles];
  }

  /**
    The loop of solveUsingAStar, allowed at most `fuel` expansions. It stops
    when the open list is empty, when the fuel is spent, or at a polled board
    (index `m`, left in the open list) that is solved or has no blank.
   */
  method Search(initial: PuzzleBoard, h: Heuristic, fuel: nat)
    returns (costSoFar: map<Grid, nat>, open: seq<PuzzleBoard>, ghost expanded: set<Grid>, trace: seq<Grid>, m: nat)
    requires Valid(initial) && initial.cost == 0
    ensures Exploring(initial, costSoFar, open, expanded, trace)
    ensures |trace| <= fuel
    ensures open == [] || |trace| == fuel ||
            (m < |open| && (IsSolved(open[m]) || FindEmptySpace(open[m]).None?))
    ensures m < |open| && |trace| < fuel ==> forall k :: 0 <= k < |open| ==> Priority(h, open[m]) <= Priority(h, open[k])
  {
    costSoFar := map[initial.tiles := 0];
    open := [initial];
    expanded := {};
    trace := [];
    m := 0;
    ExploringInitially(initial);
    var stop := false;
    while !stop
      invariant Exploring(initial, costSoFar, open, expanded, trace)
      invariant |trace| <= fuel
      invariant stop ==> open == [] || |trace| == fuel ||
                         (m < |open| && (IsSolved(open[m]) || FindEmptySpace(open[m]).None?))
      invariant stop && m < |open| && |trace| < fuel ==>
                  forall k :: 0 <= k < |open| ==> Priority(h, open[m]) <= Priority(h, open[k])
      decreases fuel - |trace|, !stop
    {
      if open == [] || |trace| == fuel {
        stop := true;
      } else {
        m := PollMin(h, open);
        if IsSolved(open[m]) || Neighbors(open[m]).None? {
          stop := true;
        } else {
          costSoFar, open, expanded, trace := Expand(initial, costSoFar, open, expanded, trace, m);
        }
      }
    }
  }

  /**
    solveUsingAStar run with heuristic `h` and at most `fuel` expansions. It
    resets the start board's cost to 0 in the solver, as the Java code does,
    and returns the cost map, the grids polled, in order, and the boards
    left in the open set.
   */
  method SolveUsingAStar(graph: PuzzleGraph, h: Heuristic, fuel: nat)
    returns (outcome: Outcome, graph': PuzzleGraph, costSoFar: map<Grid, nat>, trace: seq<Grid>, rest: seq<PuzzleBoard>)
    requires Valid(graph.initialState)
    ensures graph'.initialState == graph.initialState.(cost := 0)
    ensures var n := graph.initialState.size;
            var start := graph.initialState.tiles;
            && start in costSoFar && costSoFar[start] == 0
            && (forall g :: g in costSoFar ==> ReachableIn(n, start, g, costSoFar[g]))
            && (trace != [] ==> trace[0] == start)
            && (forall k :: 0 <= k < |trace| - 1 ==> trace[k] != SolvedGrid(n))
            && OpenSound(n, start, costSoFar, rest)
    ensures forall k :: 0 <= k < |trace| ==> trace[k] in costSoFar
    ensures forall k :: 0 <= k < |trace| - 1 ==> WasExpanded(graph.initialState.size, costSoFar, trace[k])
    ensures outcome.NoSolution? || outcome.OutOfFuel? ==>
              forall k :: 0 <= k < |trace| ==> WasExpanded(graph.initialState.size, costSoFar, trace[k])
    ensures outcome.statesProcessed == |trace| <= fuel
    ensures var n := graph.initialState.size;
            var start := graph.initialState.tiles;
            outcome.Solved? ==>
              && Valid(outcome.board) && outcome.board.size == n && IsSolved(outcome.board)
              && |trace| > 0 && outcome.board.tiles == trace[|trace| - 1]
              && outcome.board.tiles in costSoFar && 0 <= costSoFar[outcome.board.tiles] <= outcome.board.cost
              && ReachableIn(n, start, outcome.board.tiles, outcome.board.cost)
              && forall k :: 0 <= k < |rest| ==> Priority(h, outcome.board) <= Priority(h, rest[k])
    ensures var n := graph.initialState.size;
            var start := graph.initialState.tiles;
            outcome.NoSolution? ==>
              && rest == []
              && (forall k :: 0 <= k < |trace| ==> trace[k] != SolvedGrid(n))
              && (forall g :: g in costSoFar ==> g in trace)
              && (forall g :: Reachable(n, start, g) ==> g != SolvedGrid(n))
    ensures outcome.NoEmptySpace? ==> |trace| == 1 && FindEmptySpace(graph.initialState).None?
    ensures outcome.OutOfFuel? ==> |trace| == fuel
  {
    var initial := graph.initialState.(cost := 0);
    graph' := SetInitialState(graph, initial);
    var open, m;
    ghost var expanded;
    costSoFar, open, expanded, trace, m := Search(initial, h, fuel);
    ExploringStopped(initial, costSoFar, open, expanded, trace, m);
    if open == [] {
      outcome := NoSolution(|trace|);
      rest := [];
    } else if |trace| == fuel {
      outcome := OutOfFuel(|trace|);
      rest := open;
    } else {
      LastPollFacts(h, initial, costSoFar, open, expanded, trace, m);
      rest := Remove(open, m);
      trace := trace + [open[m].tiles];
      if IsSolved(open[m]) {
        outcome := Solved(open[m], |trace|);
      } else {
        assert FindEmptySpace(initial) == FindEmptySpace(graph.initialState);
        outcome := NoEmptySpace(|trace|);
      }
    }
  }
}

=== FILE: astar_facts.dfy ===
/**
  The pieces of solveUsingAStar of PuzzleGraph.java below the loop: the
  neighbour loop that lowers `costSoFar` and feeds the open set, the
  priority the open set orders by, and the invariant of the search loop
  with the lemmas that establish, keep and use it.
 */
module AStarFacts {
  import opened Grids
  import opened Boards
  import opened SearchSpace
  import opened Heuristics

  /** The key the open set is ordered by: cost so far plus the heuristic estimate. */
  function Priority(h: Heuristic, b: PuzzleBoard): (r: int)
    requires Valid(b)
    ensures r >= b.cost
    ensures h == Zero ==> r == b.cost
  {
    b.cost + Estimate(h, b)
  }

  function Min(a: nat, b: nat): nat {
    if a <= b then a else b
  }

  /** The cost map and the boards to add to the open set after one expansion. */
  datatype Relaxation = Relaxation(costSoFar: map<Grid, nat>, inserted: seq<PuzzleBoard>)

  /**
    The neighbour loop of one expansion of the board with grid `from`: in
    order, a neighbour whose grid has no recorded cost, or a recorded cost
    above the cost of `from` plus one, gets that cost, is recorded and is
    added to the open set.
   */
  function Relax(costSoFar: map<Grid, nat>, from: Grid, ns: seq<PuzzleBoard>): (r: Relaxation)
    requires from in costSoFar
    ensures |r.inserted| <= |ns|
    decreases |ns|
  {
    if ns == [] then Relaxation(costSoFar, [])
    else
      var newCost := costSoFar[from] + 1;
      var g := ns[0].tiles;
      if g !in costSoFar || newCost < costSoFar[g] then
        var rest := Relax(costSoFar[g := newCost], from, ns[1..]);
        Relaxation(rest.costSoFar, [ns[0].(cost := newCost)] + rest.inserted)
      else
        Relax(costSoFar, from, ns[1..])
  }

  /** The cost grid `g` ends with after relaxing every grid of `gs` with cost `c`: the smaller one if it is in `gs`. */
  function RelaxedCost(costSoFar: map<Grid, nat>, gs: seq<Grid>, c: nat, g: Grid): nat
    requires g in costSoFar || g in gs
  {
    if g in gs then (if g in costSoFar then Min(costSoFar[g], c) else c) else costSoFar[g]
  }

  /**
    `after` is `costSoFar` with every grid of `gs` relaxed with cost `c`,
    stated without an order: each grid of `gs` keeps the smaller of its
    recorded cost and `c`, and every other entry is untouched.
   */
  ghost predicate Relaxed(costSoFar: map<Grid, nat>, gs: seq<Grid>, c: nat, after: map<Grid, nat>) {
    && (forall g :: g in after <==> g in costSoFar || g in gs)
    && (forall g :: g in after ==> after[g] == RelaxedCost(costSoFar, gs, c, g))
  }

  /** Relaxing first a grid that gains nothing changes nothing. */
  lemma RelaxedSkip(costSoFar: map<Grid, nat>, g0: Grid, gs: seq<Grid>, c: nat, after: map<Grid, nat>)
    requires g0 in costSoFar && c >= costSoFar[g0]
    requires Relaxed(costSoFar, gs, c, after)
    ensures Relaxed(costSoFar, [g0] + gs, c, after)
  {
    assert forall g :: g in [g0] + gs <==> g == g0 || g in gs;
  }

  /** Relaxing first a grid that gains records `c` for it before the rest. */
  lemma RelaxedInsert(costSoFar: map<Grid, nat>, g0: Grid, gs: seq<Grid>, c: nat, after: map<Grid, nat>)
    requires g0 !in costSoFar || c < costSoFar[g0]
    requires Relaxed(costSoFar[g0 := c], gs, c, after)
    ensures Relaxed(costSoFar, [g0] + gs, c, after)
  {
    assert forall g :: g in [g0] + gs <==> g == g0 || g in gs;
    forall g | g in after
      ensures after[g] == RelaxedCost(costSoFar, [g0] + gs, c, g)
    {
      if g != g0 && g in costSoFar {
        assert costSoFar[g0 := c][g] == costSoFar[g];
      }
    }
  }

  /** The sequential neighbour loop computes the order-free `Relaxed` map. */
  lemma {:induction false} RelaxCosts(costSoFar: map<Grid, nat>, from: Grid, ns: seq<PuzzleBoard>)
    requires from in costSoFar
    ensures Relaxed(costSoFar, TilesOf(ns), costSoFar[from] + 1, Relax(costSoFar, from, ns).costSoFar)
    decreases |ns|
  {
    var c := costSoFar[from] + 1;
    if ns != [] {
      var g0 := ns[0].tiles;
      var after := Relax(costSoFar, from, ns).costSoFar;
      TilesOfFirst(ns);
      if g0 !in costSoFar || c < costSoFar[g0] {
        var cost' := costSoFar[g0 := c];
        assert cost'[from] == costSoFar[from];
        assert after == Relax(cost', from, ns[1..]).costSoFar;
        RelaxCosts(cost', from, ns[1..]);
        RelaxedInsert(costSoFar, g0, TilesOf(ns[1..]), c, after);
      } else {
        assert after == Relax(costSoFar, from, ns[1..]).costSoFar;
        RelaxCosts(costSoFar, from, ns[1..]);
        RelaxedSkip(costSoFar, g0, TilesOf(ns[1..]), c, after);
      }
    }
  }

  /**
    `b` may be added to the open set by a loop over grids `gs` at cost `c`:
    it carries that cost, its grid is one of `gs`, and the grid had no
    recorded cost or a higher one.
   */
  predicate Improves(n: nat, costSoFar: map<Grid, nat>, c: nat, gs: seq<Grid>, b: PuzzleBoard) {
    && Valid(b) && b.size == n && b.cost == c && b.tiles in gs
    && (b.tiles !in costSoFar || c < costSoFar[b.tiles])
  }

  /** A board that improves on the map after `g0` was recorded at `c` improves on the map before. */
  lemma ImprovesBefore(n: nat, costSoFar: map<Grid, nat>, c: nat, g0: Grid, gs: seq<Grid>, gs': seq<Grid>, b: PuzzleBoard)
    requires Improves(n, costSoFar[g0 := c], c, gs', b)
    requires forall g :: g in gs' ==> g in gs
    ensures Improves(n, costSoFar, c, gs, b)
  {
    assert b.tiles != g0;
  }

  /**
    Every board the loop adds to the open set is a neighbour carrying the
    new cost, and its grid had no recorded cost or a higher one.
   */
  lemma {:induction false} RelaxInsertsImproved(n: nat, costSoFar: map<Grid, nat>, from: Grid, ns: seq<PuzzleBoard>)
    requires from in costSoFar
    requires forall k :: 0 <= k < |ns| ==> Valid(ns[k]) && ns[k].size == n
    ensures forall k :: 0 <= k < |Relax(costSoFar, from, ns).inserted| ==>
              Improves(n, costSoFar, costSoFar[from] + 1, TilesOf(ns), Relax(costSoFar, from, ns).inserted[k])
    decreases |ns|
  {
    var c := costSoFar[from] + 1;
    if ns != [] {
      var r := Relax(costSoFar, from, ns);
      var g0 := ns[0].tiles;
      var gs, gs' := TilesOf(ns), TilesOf(ns[1..]);
      TilesOfFirst(ns);
      if g0 !in costSoFar || c < costSoFar[g0] {
        var cost' := costSoFar[g0 := c];
        assert g0 != from;
        var rest := Relax(cost', from, ns[1..]);
        assert r.inserted == [ns[0].(cost := c)] + rest.inserted;
        RelaxInsertsImproved(n, cost', from, ns[1..]);
        forall k | 0 <= k < |r.inserted|
          ensures Improves(n, costSoFar, c, gs, r.inserted[k])
        {
          if k > 0 {
            assert r.inserted[k] == rest.inserted[k - 1];
            ImprovesBefore(n, costSoFar, c, g0, gs, gs', rest.inserted[k - 1]);
          }
        }
      } else {
        assert r == Relax(costSoFar, from, ns[1..]);
        RelaxInsertsImproved(n, costSoFar, from, ns[1..]);
        forall k | 0 <= k < |r.inserted|
          ensures Improves(n, costSoFar, c, gs, r.inserted[k])
        {
          assert Improves(n, costSoFar, c, gs', r.inserted[k]);
        }
      }
    }
  }

  /** Every neighbour whose grid gains from the new cost is added to the open set. */
  lemma {:induction false} RelaxInsertsAll(costSoFar: map<Grid, nat>, from: Grid, ns: seq<PuzzleBoard>)
    requires from in costSoFar
    ensures forall g :: g in TilesOf(ns) && (g !in costSoFar || costSoFar[from] + 1 < costSoFar[g]) ==>
              g in TilesOf(Relax(costSoFar, from, ns).inserted)
    decreases |ns|
  {
    var c := costSoFar[from] + 1;
    if ns != [] {
      var r := Relax(costSoFar, from, ns);
      var g0 := ns[0].tiles;
      TilesOfFirst(ns);
      if g0 !in costSoFar || c < costSoFar[g0] {
        var cost' := costSoFar[g0 := c];
        assert g0 != from;
        var rest := Relax(cost', from, ns[1..]);
        assert r.inserted == [ns[0].(cost := c)] + rest.inserted;
        TilesOfFirst(r.inserted);
        assert r.inserted[1..] == rest.inserted;
        RelaxInsertsAll(cost', from, ns[1..]);
      } else {
        RelaxInsertsAll(costSoFar, from, ns[1..]);
      }
    }
  }

  /** Each relaxed entry is its old cost or the new one, whichever is smaller; other entries keep theirs. */
  lemma RelaxedValues(costSoFar: map<Grid, nat>, gs: seq<Grid>, c: nat, after: map<Grid, nat>)
    requires Relaxed(costSoFar, gs, c, after)
    ensures forall g :: g in costSoFar ==> after[g] <= costSoFar[g]
    ensures forall g :: g in after ==> (g in costSoFar && after[g] == costSoFar[g]) || (g in gs && after[g] == c)
  {
  }

  /** What the neighbour loop over `ns`, whose grids are `gs`, does to the cost map. */
  lemma RelaxMapFacts(costSoFar: map<Grid, nat>, from: Grid, ns: seq<PuzzleBoard>, gs: seq<Grid>, r: Relaxation)
    requires from in costSoFar && gs == TilesOf(ns) && r == Relax(costSoFar, from, ns)
    ensures forall g :: g in r.costSoFar <==> g in costSoFar || g in gs
    ensures forall g :: g in costSoFar ==> r.costSoFar[g] <= costSoFar[g]
    ensures forall g :: g in r.costSoFar ==>
              || (g in costSoFar && r.costSoFar[g] == costSoFar[g])
              || (g in gs && r.costSoFar[g] == costSoFar[from] + 1)
    ensures r.costSoFar[from] == costSoFar[from]
  {
    RelaxCosts(costSoFar, from, ns);
    RelaxedValues(costSoFar, gs, costSoFar[from] + 1, r.costSoFar);
  }

  /** What the neighbour loop over `ns`, whose grids are `gs`, adds to the open set. */
  lemma RelaxOpenFacts(n: nat, costSoFar: map<Grid, nat>, from: Grid, ns: seq<PuzzleBoard>, gs: seq<Grid>, r: Relaxation)
    requires from in costSoFar && gs == TilesOf(ns) && r == Relax(costSoFar, from, ns)
    requires forall k :: 0 <= k < |ns| ==> Valid(ns[k]) && ns[k].size == n
    ensures forall k :: 0 <= k < |r.inserted| ==>
              && Valid(r.inserted[k]) && r.inserted[k].size == n
              && r.inserted[k].cost == costSoFar[from] + 1
              && r.inserted[k].tiles in gs
              && r.inserted[k].tiles in r.costSoFar
              && r.costSoFar[r.inserted[k].tiles] == r.inserted[k].cost
    ensures forall g :: g in gs && (g !in costSoFar || costSoFar[from] + 1 < costSoFar[g]) ==>
              g in TilesOf(r.inserted)
  {
    RelaxCosts(costSoFar, from, ns);
    RelaxInsertsImproved(n, costSoFar, from, ns);
    RelaxInsertsAll(costSoFar, from, ns);
  }

  /** What one run of the neighbour loop does to the cost map and the open set, in terms of the expanded board. */
  lemma RelaxFacts(n: nat, costSoFar: map<Grid, nat>, current: PuzzleBoard, r: Relaxation)
    requires Valid(current) && current.size == n && current.tiles in costSoFar && Neighbors(current).Some?
    requires r == Relax(costSoFar, current.tiles, Neighbors(current).value)
    ensures forall g :: g in r.costSoFar <==> g in costSoFar || g in NeighborGrids(n, current.tiles)
    ensures forall g :: g in costSoFar ==> r.costSoFar[g] <= costSoFar[g]
    ensures forall g :: g in r.costSoFar ==>
              || (g in costSoFar && r.costSoFar[g] == costSoFar[g])
              || (g in NeighborGrids(n, current.tiles) && r.costSoFar[g] == costSoFar[current.tiles] + 1)
    ensures r.costSoFar[current.tiles] == costSoFar[current.tiles]
    ensures forall k :: 0 <= k < |r.inserted| ==>
              && Valid(r.inserted[k]) && r.inserted[k].size == n
              && r.inserted[k].cost == costSoFar[current.tiles] + 1
              && r.inserted[k].tiles in NeighborGrids(n, current.tiles)
              && r.inserted[k].tiles in r.costSoFar
              && r.costSoFar[r.inserted[k].tiles] == r.inserted[k].cost
    ensures forall g :: g in NeighborGrids(n, current.tiles) && (g !in costSoFar || costSoFar[current.tiles] + 1 < costSoFar[g]) ==>
              g in TilesOf(r.inserted)
  {
    var ns := Neighbors(current).value;
    NeighborsIgnoreCost(current);
    RelaxMapFacts(costSoFar, current.tiles, ns, NeighborGrids(n, current.tiles), r);
    RelaxOpenFacts(n, costSoFar, current.tiles, ns, NeighborGrids(n, current.tiles), r);
  }

  /** `s` without its element at index `m`. */
  function Remove<T>(s: seq<T>, m: nat): (r: seq<T>)
    requires m < |s|
    ensures |r| == |s| - 1
    ensures forall k :: 0 <= k < m ==> r[k] == s[k]
    ensures forall k :: m < k < |s| ==> r[k - 1] == s[k]
  {
    s[..m] + s[m + 1..]
  }

  /** Every recorded cost is the length of a slide path from the start, whose own cost is 0. */
  ghost predicate CostsSound(n: nat, start: Grid, costSoFar: map<Grid, nat>) {
    && start in costSoFar && costSoFar[start] == 0
    && forall g :: g in costSoFar ==> WellShaped(n, g) && ReachableIn(n, start, g, costSoFar[g])
  }

  /** Every open board is recorded, its cost is a slide-path length, and at least its grid's recorded cost. */
  ghost predicate OpenSound(n: nat, start: Grid, costSoFar: map<Grid, nat>, open: seq<PuzzleBoard>) {
    forall k :: 0 <= k < |open| ==>
      && Valid(open[k]) && open[k].size == n
      && open[k].tiles in costSoFar && costSoFar[open[k].tiles] <= open[k].cost
      && ReachableIn(n, start, open[k].tiles, open[k].cost)
  }

  /** Every recorded grid has been expanded or still has a board in the open set. */
  ghost predicate Covered(costSoFar: map<Grid, nat>, open: seq<PuzzleBoard>, expanded: set<Grid>) {
    forall g :: g in costSoFar ==> g in expanded || g in TilesOf(open)
  }

  /** `g` has been expanded: it is recorded, is not solved, and all its neighbours are recorded. */
  ghost predicate WasExpanded(n: nat, costSoFar: map<Grid, nat>, g: Grid) {
    && g in costSoFar && g != SolvedGrid(n) && WellShaped(n, g)
    && forall h :: h in NeighborGrids(n, g) ==> h in costSoFar
  }

  /** The expanded grids are those of the trace, and each of them was expanded. */
  ghost predicate ExpandedSound(n: nat, costSoFar: map<Grid, nat>, expanded: set<Grid>, trace: seq<Grid>) {
    && (forall k :: 0 <= k < |trace| ==> trace[k] in expanded)
    && (forall g :: g in expanded ==> g in trace)
    && forall g :: g in expanded ==> WasExpanded(n, costSoFar, g)
  }

  /** Before the first poll the open set holds just the start board; afterwards every open board has a blank. */
  ghost predicate FirstPoll(initial: PuzzleBoard, open: seq<PuzzleBoard>, processed: nat) {
    && (processed == 0 ==> open == [initial])
    && (processed > 0 ==> AllHaveBlank(open))
  }

  ghost predicate AllHaveBlank(open: seq<PuzzleBoard>) {
    forall k :: 0 <= k < |open| ==> Valid(open[k]) && HasBlank(open[k].tiles)
  }

  /** The invariant of the A* loop; `initial` is the start board with its cost set to 0. */
  ghost predicate Exploring(initial: PuzzleBoard, costSoFar: map<Grid, nat>, open: seq<PuzzleBoard>,
                            expanded: set<Grid>, trace: seq<Grid>) {
    && Valid(initial) && initial.cost == 0
    && CostsSound(initial.size, initial.tiles, costSoFar)
    && OpenSound(initial.size, initial.tiles, costSoFar, open)
    && Covered(costSoFar, open, expanded)
    && ExpandedSound(initial.size, costSoFar, expanded, trace)
    && FirstPoll(initial, open, |trace|)
    && (|trace| > 0 ==> trace[0] == initial.tiles)
  }

  lemma CostsStep(n: nat, start: Grid, costSoFar: map<Grid, nat>, current: PuzzleBoard, r: Relaxation)
    requires CostsSound(n, start, costSoFar)
    requires Valid(current) && current.size == n && current.tiles in costSoFar && Neighbors(current).Some?
    requires r == Relax(costSoFar, current.tiles, Neighbors(current).value)
    ensures CostsSound(n, start, r.costSoFar)
  {
    NeighborsIgnoreCost(current);
    RelaxMapFacts(costSoFar, current.tiles, Neighbors(current).value, NeighborGrids(n, current.tiles), r);
    var c := costSoFar[current.tiles] + 1;
    forall g | g in r.costSoFar
      ensures WellShaped(n, g) && ReachableIn(n, start, g, r.costSoFar[g])
    {
      if !(g in costSoFar && r.costSoFar[g] == costSoFar[g]) {
        NeighborIsSlide(n, current.tiles, g);
        SlideKeepsShapeAndCells(n, current.tiles, g);
        ReachableStep(n, start, current.tiles, g, costSoFar[current.tiles]);
      }
    }
  }

  lemma OpenRemove(n: nat, start: Grid, costSoFar: map<Grid, nat>, open: seq<PuzzleBoard>, m: nat)
    requires OpenSound(n, start, costSoFar, open) && m < |open|
    ensures OpenSound(n, start, costSoFar, Remove(open, m))
  {
    var rest := Remove(open, m);
    forall k | 0 <= k < |rest|
      ensures rest[k] == open[if k < m then k else k + 1]
    {
    }
  }

  /** Lowering recorded costs keeps the open set sound. */
  lemma OpenLower(n: nat, start: Grid, costSoFar: map<Grid, nat>, costSoFar': map<Grid, nat>, open: seq<PuzzleBoard>)
    requires OpenSound(n, start, costSoFar, open)
    requires forall g :: g in costSoFar ==> g in costSoFar' && costSoFar'[g] <= costSoFar[g]
    ensures OpenSound(n, start, costSoFar', open)
  {
  }

  lemma OpenAppend(n: nat, start: Grid, costSoFar: map<Grid, nat>, a: seq<PuzzleBoard>, b: seq<PuzzleBoard>)
    requires OpenSound(n, start, costSoFar, a) && OpenSound(n, start, costSoFar, b)
    ensures OpenSound(n, start, costSoFar, a + b)
  {
    forall k | 0 <= k < |a + b|
      ensures (a + b)[k] == if k < |a| then a[k] else b[k - |a|]
    {
    }
  }

  lemma OpenInserted(n: nat, start: Grid, costSoFar: map<Grid, nat>, current: PuzzleBoard, r: Relaxation)
    requires CostsSound(n, start, costSoFar)
    requires Valid(current) && current.size == n && current.tiles in costSoFar && Neighbors(current).Some?
    requires r == Relax(costSoFar, current.tiles, Neighbors(current).value)
    ensures OpenSound(n, start, r.costSoFar, r.inserted)
  {
    RelaxFacts(n, costSoFar, current, r);
    forall k | 0 <= k < |r.inserted|
      ensures ReachableIn(n, start, r.inserted[k].tiles, r.inserted[k].cost)
    {
      var b := r.inserted[k];
      NeighborIsSlide(n, current.tiles, b.tiles);
      ReachableStep(n, start, current.tiles, b.tiles, costSoFar[current.tiles]);
    }
  }

  lemma OpenStep(n: nat, start: Grid, costSoFar: map<Grid, nat>, open: seq<PuzzleBoard>, m: nat, r: Relaxation)
    requires CostsSound(n, start, costSoFar) && OpenSound(n, start, costSoFar, open) && m < |open|
    requires Neighbors(open[m]).Some?
    requires r == Relax(costSoFar, open[m].tiles, Neighbors(open[m]).value)
    ensures OpenSound(n, start, r.costSoFar, Remove(open, m) + r.inserted)
  {
    RelaxFacts(n, costSoFar, open[m], r);
    OpenRemove(n, start, costSoFar, open, m);
    OpenLower(n, start, costSoFar, r.costSoFar, Remove(open, m));
    OpenInserted(n, start, costSoFar, open[m], r);
    OpenAppend(n, start, r.costSoFar, Remove(open, m), r.inserted);
  }

  /** A grid of an open board other than the one at `m` is still a grid of an open board after `m` is removed. */
  lemma TilesOfRemove(open: seq<PuzzleBoard>, m: nat, k: nat)
    requires m < |open| && k < |open| && k != m
    ensures open[k].tiles in TilesOf(Remove(open, m))
  {
    var k' := if k < m then k else k - 1;
    assert TilesOf(Remove(open, m))[k'] == open[k].tiles;
  }

  lemma TilesOfAppend(a: seq<PuzzleBoard>, b: seq<PuzzleBoard>)
    ensures forall g :: g in TilesOf(a + b) <==> g in TilesOf(a) || g in TilesOf(b)
  {
    assert TilesOf(a + b) == TilesOf(a) + TilesOf(b);
  }

  lemma CoveredStep(n: nat, costSoFar: map<Grid, nat>, open: seq<PuzzleBoard>, expanded: set<Grid>, m: nat, r: Relaxation)
    requires Covered(costSoFar, open, expanded) && m < |open|
    requires Valid(open[m]) && open[m].size == n && open[m].tiles in costSoFar && Neighbors(open[m]).Some?
    requires r == Relax(costSoFar, open[m].tiles, Neighbors(open[m]).value)
    ensures Covered(r.costSoFar, Remove(open, m) + r.inserted, expanded + {open[m].tiles})
  {
    RelaxFacts(n, costSoFar, open[m], r);
    TilesOfAppend(Remove(open, m), r.inserted);
    forall g | g in r.costSoFar && g !in expanded + {open[m].tiles}
      ensures g in TilesOf(Remove(open, m)) || g in TilesOf(r.inserted)
    {
      if g in costSoFar {
        var k :| 0 <= k < |open| && TilesOf(open)[k] == g;
        TilesOfRemove(open, m, k);
      }
    }
  }

  lemma ExpandedStep(n: nat, costSoFar: map<Grid, nat>, expanded: set<Grid>, trace: seq<Grid>, current: PuzzleBoard, r: Relaxation)
    requires ExpandedSound(n, costSoFar, expanded, trace)
    requires Valid(current) && current.size == n && current.tiles in costSoFar && Neighbors(current).Some?
    requires !IsSolved(current)
    requires r == Relax(costSoFar, current.tiles, Neighbors(current).value)
    ensures ExpandedSound(n, r.costSoFar, expanded + {current.tiles}, trace + [current.tiles])
  {
    RelaxFacts(n, costSoFar, current, r);
    SameElementsAppend(expanded, trace, current.tiles);
  }

  /** Adding `x` to a set and appending it to a sequence with the same elements keeps them the same. */
  lemma SameElementsAppend<T>(s: set<T>, xs: seq<T>, x: T)
    requires (forall k :: 0 <= k < |xs| ==> xs[k] in s) && forall y :: y in s ==> y in xs
    ensures var xs' := xs + [x];
            (forall k :: 0 <= k < |xs'| ==> xs'[k] in s + {x}) && forall y :: y in s + {x} ==> y in xs'
  {
    var xs' := xs + [x];
    forall k | 0 <= k < |xs'|
      ensures xs'[k] in s + {x}
    {
      if k < |xs| {
        assert xs'[k] == xs[k];
      }
    }
    forall y | y in s
      ensures y in xs'
    {
      var k :| 0 <= k < |xs| && xs[k] == y;
      assert xs'[k] == y;
    }
    assert xs'[|xs|] == x;
  }

  lemma BlanksInserted(n: nat, costSoFar: map<Grid, nat>, current: PuzzleBoard, r: Relaxation)
    requires Valid(current) && current.size == n && current.tiles in costSoFar && Neighbors(current).Some?
    requires r == Relax(costSoFar, current.tiles, Neighbors(current).value)
    ensures AllHaveBlank(r.inserted)
  {
    var ns := Neighbors(current).value;
    NeighborsIgnoreCost(current);
    RelaxInsertsImproved(n, costSoFar, current.tiles, ns);
    forall k | 0 <= k < |r.inserted|
      ensures Valid(r.inserted[k]) && HasBlank(r.inserted[k].tiles)
    {
      var b := r.inserted[k];
      NeighborIsSlide(n, current.tiles, b.tiles);
      SlideTargetHasBlank(n, current.tiles, b.tiles);
    }
  }

  lemma BlanksRemoveAppend(open: seq<PuzzleBoard>, m: nat, inserted: seq<PuzzleBoard>)
    requires AllHaveBlank(open) && AllHaveBlank(inserted) && m < |open|
    ensures AllHaveBlank(Remove(open, m) + inserted)
  {
    var rest := Remove(open, m);
    var open' := rest + inserted;
    forall k | 0 <= k < |open'|
      ensures Valid(open'[k]) && HasBlank(open'[k].tiles)
    {
      if k < |rest| {
        assert open'[k] == open[if k < m then k else k + 1];
      } else {
        assert open'[k] == inserted[k - |rest|];
      }
    }
  }

  lemma FirstPollStep(initial: PuzzleBoard, n: nat, costSoFar: map<Grid, nat>, open: seq<PuzzleBoard>, processed: nat, m: nat, r: Relaxation)
    requires FirstPoll(initial, open, processed) && m < |open|
    requires Valid(open[m]) && open[m].size == n && open[m].tiles in costSoFar && Neighbors(open[m]).Some?
    requires r == Relax(costSoFar, open[m].tiles, Neighbors(open[m]).value)
    ensures FirstPoll(initial, Remove(open, m) + r.inserted, processed + 1)
  {
    BlanksInserted(n, costSoFar, open[m], r);
    if processed == 0 {
      assert Remove(open, m) == [];
      assert Remove(open, m) + r.inserted == r.inserted;
    } else {
      BlanksRemoveAppend(open, m, r.inserted);
    }
  }

  /** The invariant holds before the first poll: only the start board, recorded at cost 0. */
  lemma ExploringInitially(initial: PuzzleBoard)
    requires Valid(initial) && initial.cost == 0
    ensures Exploring(initial, map[initial.tiles := 0], [initial], {}, [])
  {
    ReachableStart(initial.size, initial.tiles);
    assert TilesOf([initial])[0] == initial.tiles;
  }

  /**
    One expansion of the polled board keeps the invariant; recorded costs
    only go down, and each entry written is the polled grid's recorded cost
    plus one.
   */
  lemma ExploringStep(initial: PuzzleBoard, costSoFar: map<Grid, nat>, open: seq<PuzzleBoard>,
                      expanded: set<Grid>, trace: seq<Grid>, m: nat, r: Relaxation)
    requires Exploring(initial, costSoFar, open, expanded, trace) && m < |open|
    requires !IsSolved(open[m]) && Neighbors(open[m]).Some?
    requires r == Relax(costSoFar, open[m].tiles, Neighbors(open[m]).value)
    ensures Exploring(initial, r.costSoFar, Remove(open, m) + r.inserted, expanded + {open[m].tiles}, trace + [open[m].tiles])
    ensures forall g :: g in costSoFar ==> g in r.costSoFar && r.costSoFar[g] <= costSoFar[g]
    ensures forall g :: g in r.costSoFar ==>
              (g in costSoFar && r.costSoFar[g] == costSoFar[g]) || r.costSoFar[g] == costSoFar[open[m].tiles] + 1
  {
    var n, start := initial.size, initial.tiles;
    var current := open[m];
    RelaxFacts(n, costSoFar, current, r);
    CostsStep(n, start, costSoFar, current, r);
    OpenStep(n, start, costSoFar, open, m, r);
    CoveredStep(n, costSoFar, open, expanded, m, r);
    ExpandedStep(n, costSoFar, expanded, trace, current, r);
    FirstPollStep(initial, n, costSoFar, open, |trace|, m, r);
    if trace == [] {
      assert current == initial;
    }
  }

  /**
    The loop stopped at a polled board that ends the search: every grid
    polled before it was expanded, it is recorded too, and what stays open is
    sound and no earlier in the queue order.
   */
  lemma LastPollFacts(h: Heuristic, initial: PuzzleBoard, costSoFar: map<Grid, nat>, open: seq<PuzzleBoard>,
                      expanded: set<Grid>, trace: seq<Grid>, m: nat)
    requires Exploring(initial, costSoFar, open, expanded, trace) && m < |open|
    requires forall k :: 0 <= k < |open| ==> Priority(h, open[m]) <= Priority(h, open[k])
    ensures var trace' := trace + [open[m].tiles];
            && (forall k :: 0 <= k < |trace'| ==> trace'[k] in costSoFar)
            && (forall k :: 0 <= k < |trace'| - 1 ==> WasExpanded(initial.size, costSoFar, trace'[k]))
    ensures OpenSound(initial.size, initial.tiles, costSoFar, Remove(open, m))
    ensures forall k :: 0 <= k < |Remove(open, m)| ==> Priority(h, open[m]) <= Priority(h, Remove(open, m)[k])
  {
    var trace' := trace + [open[m].tiles];
    forall k | 0 <= k < |trace'|
      ensures trace'[k] in costSoFar
      ensures k < |trace'| - 1 ==> WasExpanded(initial.size, costSoFar, trace'[k])
    {
      if k < |trace| {
        assert trace'[k] == trace[k] && trace[k] in expanded;
      }
    }
    OpenRemove(initial.size, initial.tiles, costSoFar, open, m);
    var rest := Remove(open, m);
    forall k | 0 <= k < |rest|
      ensures Priority(h, open[m]) <= Priority(h, rest[k])
    {
      if k >= m {
        assert rest[k] == open[k + 1];
      }
    }
  }

  /** What the invariant gives once the loop stops, with `m` the index of the last polled board if any. */
  lemma ExploringStopped(initial: PuzzleBoard, costSoFar: map<Grid, nat>, open: seq<PuzzleBoard>,
                         expanded: set<Grid>, trace: seq<Grid>, m: nat)
    requires Exploring(initial, costSoFar, open, expanded, trace)
    ensures forall k :: 0 <= k < |trace| ==> WasExpanded(initial.size, costSoFar, trace[k])
    ensures open == [] ==> forall g :: g in costSoFar ==> g in trace
    ensures open == [] ==> forall g :: Reachable(initial.size, initial.tiles, g) ==> g != SolvedGrid(initial.size)
    ensures m < |open| ==>
              && Valid(open[m]) && open[m].size == initial.size
              && open[m].tiles in costSoFar && costSoFar[open[m].tiles] <= open[m].cost
              && ReachableIn(initial.size, initial.tiles, open[m].tiles, open[m].cost)
    ensures m < |open| && trace == [] ==> open[m] == initial
    ensures m < |open| && FindEmptySpace(open[m]).None? ==> trace == []
  {
    var n, start := initial.size, initial.tiles;
    forall k | 0 <= k < |trace|
      ensures WasExpanded(n, costSoFar, trace[k])
    {
      assert trace[k] in expanded;
    }
    if open == [] {
      forall g, h | g in costSoFar && IsSlide(n, g, h)
        ensures h in costSoFar
      {
        assert g in expanded;
        SlideIsNeighbor(n, g, h);
      }
      ClosedSetHoldsReachable(n, start, costSoFar.Keys);
    }
  }
}

=== FILE: bfs.dfy ===
/**
  solveUsingBFS of PuzzleGraph.java: a FIFO queue of boards and a visited
  set keyed by grid contents; the first popped board that is solved ends
  the search.
 */
module BreadthFirst {
  import opened Grids
  import opened Boards
  import opened SearchSpace
  import opened BreadthFirstFacts

  /**
    The body of the search loop for a popped board that is not solved and has
    a blank: enqueue its unvisited neighbours and mark them visited.
   */
  method Expand(n: nat, ghost start: Grid, queue: seq<PuzzleBoard>, order: seq<Grid>, ghost level: seq<nat>,
                popped: nat, visited: set<Grid>)
    returns (queue': seq<PuzzleBoard>, order': seq<Grid>, ghost level': seq<nat>, visited': set<Grid>)
    requires Searching(n, start, queue, order, level, popped, visited) && queue != []
    requires !IsSolved(queue[0]) && Neighbors(queue[0]).Some?
    requires visited <= Universe(n, start)
    ensures Searching(n, start, queue', order', level', popped + 1, visited')
    ensures visited' <= Universe(n, start)
    ensures (visited' == visited && |queue'| < |queue|) || Universe(n, start) - visited' < Universe(n, start) - visited
  {
    var current := queue[0];
    var found := Discover(visited, Neighbors(current).value);
    ExpandFacts(n, start, queue, order, level, popped, visited, found);
    queue' := queue[1..] + found.added;
    order' := order + TilesOf(found.added);
    level' := level + Repeat(|found.added|, level[popped] + 1);
    visited' := found.visited;
  }

  /**
    The loop of solveUsingBFS: pop boards until the queue is empty, the
    front board is solved, or the front board has no blank. The front board
    is left in the queue; `popped` counts the boards expanded before it.
   */
  method Search(initial: PuzzleBoard)
    returns (queue: seq<PuzzleBoard>, order: seq<Grid>, ghost level: seq<nat>, popped: nat, visited: set<Grid>)
    requires Valid(initial)
    ensures Searching(initial.size, initial.tiles, queue, order, level, popped, visited)
    ensures queue == [] || IsSolved(queue[0]) || FindEmptySpace(queue[0]).None?
  {
    var n := initial.size;
    var start := initial.tiles;
    ghost var universe := Universe(n, start);
    popped := 0;
    queue := [initial];
    visited := {start};
    order := [start];
    level := [0];
    InitialFacts(initial);
    while queue != [] && !IsSolved(queue[0]) && Neighbors(queue[0]).Some?
      invariant Searching(n, start, queue, order, level, popped, visited)
      invariant visited <= universe
      decreases universe - visited, |queue|
    {
      queue, order, level, visited := Expand(n, start, queue, order, level, popped, visited);
      popped := popped + 1;
    }
  }

  /**
    What solveUsingBFS reports for a search from `initial`, given `trace`,
    the grids of the boards it polled in order. The count is the number of
    boards polled. A Solved outcome carries the last of them, solved.
    NoSolution means every visited grid was expanded and no grid reachable
    from the start is solved. The missing-blank exception can only come from
    the first board.
   */
  ghost predicate Reports(initial: PuzzleBoard, outcome: Outcome, visited: set<Grid>, trace: seq<Grid>)
    requires Valid(initial)
  {
    var n := initial.size;
    var start := initial.tiles;
    && |trace| >= 1
    && outcome.statesProcessed == |trace|
    && (outcome.Solved? ==>
          && Valid(outcome.board) && outcome.board.size == n
          && IsSolved(outcome.board) && outcome.board.tiles == trace[|trace| - 1])
    && (outcome.NoSolution? ==>
          && (forall g :: g in visited ==> g in trace && g != SolvedGrid(n))
          && (forall g :: Reachable(n, start, g) ==> g != SolvedGrid(n)))
    && (outcome.NoEmptySpace? ==> |trace| == 1 && FindEmptySpace(initial).None?)
    && !outcome.OutOfFuel?
  }

  /** An emptied queue reports no solution, with every expanded grid in the trace. */
  lemma ReportExhausted(initial: PuzzleBoard, order: seq<Grid>, level: seq<nat>, visited: set<Grid>, popped: nat)
    requires Valid(initial) && Searching(initial.size, initial.tiles, [], order, level, popped, visited)
    ensures popped <= |order| && popped <= |level|
    ensures Reports(initial, NoSolution(popped), visited, order[..popped])
    ensures BreadthFirstTrace(initial.size, initial.tiles, visited, order[..popped], level[..popped])
  {
    ExhaustedFacts(initial.size, initial.tiles, order, level, visited, popped);
  }

  /** A solved front board is reported with every expanded grid and itself in the trace. */
  lemma ReportSolved(initial: PuzzleBoard, queue: seq<PuzzleBoard>, order: seq<Grid>, level: seq<nat>, visited: set<Grid>, popped: nat)
    requires Valid(initial) && Searching(initial.size, initial.tiles, queue, order, level, popped, visited)
    requires queue != [] && Valid(queue[0]) && IsSolved(queue[0])
    ensures popped + 1 <= |order| && popped + 1 <= |level|
    ensures Reports(initial, Solved(queue[0], popped + 1), visited, order[..popped + 1])
    ensures BreadthFirstTrace(initial.size, initial.tiles, visited, order[..popped + 1], level[..popped + 1])
  {
    SolvedExit(initial.size, initial.tiles, queue, order, level, visited, popped);
  }

  /** A front board without a blank is the initial one: the search reports the exception after one board. */
  lemma ReportNoBlank(initial: PuzzleBoard, queue: seq<PuzzleBoard>, order: seq<Grid>, level: seq<nat>, visited: set<Grid>, popped: nat)
    requires Valid(initial) && Searching(initial.size, initial.tiles, queue, order, level, popped, visited)
    requires queue != [] && Valid(queue[0]) && FindEmptySpace(queue[0]).None?
    ensures 1 <= |order| && 1 <= |level|
    ensures Reports(initial, NoEmptySpace(1), visited, order[..1])
    ensures BreadthFirstTrace(initial.size, initial.tiles, visited, order[..1], level[..1])
  {
    NoBlankExit(initial.size, initial.tiles, queue, order, level, visited, popped);
  }

  /**
    solveUsingBFS: search from the initial board and report instead of
    printing. The polled grids are distinct and reachable from the start.
    `depth` gives, for each, the least number of moves that reaches it; these
    never decrease along the trace, and only the last grid may be solved.
   */
  method SolveUsingBFS(graph: PuzzleGraph) returns (outcome: Outcome, visited: set<Grid>, trace: seq<Grid>, ghost depth: seq<nat>)
    requires Valid(graph.initialState)
    ensures Reports(graph.initialState, outcome, visited, trace)
    ensures BreadthFirstTrace(graph.initialState.size, graph.initialState.tiles, visited, trace, depth)
  {
    var queue, order, popped;
    ghost var level;
    queue, order, level, popped, visited := Search(graph.initialState);
    if queue == [] {
      ReportExhausted(graph.initialState, order, level, visited, popped);
      trace, depth := order[..popped], level[..popped];
      outcome := NoSolution(popped);
    } else if IsSolved(queue[0]) {
      ReportSolved(graph.initialState, queue, order, level, visited, popped);
      trace, depth := order[..popped + 1], level[..popped + 1];
      outcome := Solved(queue[0], popped + 1);
    } else {
      ReportNoBlank(graph.initialState, queue, order, level, visited, popped);
      trace, depth := order[..1], level[..1];
      outcome := NoEmptySpace(1);
    }
  }
}

=== FILE: bfs_facts.dfy ===
/**
  The pieces of solveUsingBFS of PuzzleGraph.java below the loop: the
  neighbour loop of one expansion, and the invariant of the search loop
  with the lemmas that establish, keep and use it.
 */
module BreadthFirstFacts {
  import opened Grids
  import opened Boards
  import opened SearchSpace

  /** The visited set and the boards to enqueue after one expansion. */
  datatype Discovery = Discovery(visited: set<Grid>, added: seq<PuzzleBoard>)

  /**
    The neighbour loop of one expansion: in order, each neighbour whose grid
    is not yet visited is enqueued and marked visited.
   */
  function Discover(visited: set<Grid>, ns: seq<PuzzleBoard>): (r: Discovery)
    ensures |r.added| <= |ns|
    decreases |ns|
  {
    if ns == [] then Discovery(visited, [])
    else if ns[0].tiles in visited then Discover(visited, ns[1..])
    else
      var rest := Discover(visited + {ns[0].tiles}, ns[1..]);
      Discovery(rest.visited, [ns[0]] + rest.added)
  }

  lemma TilesOfCons(ns: seq<PuzzleBoard>)
    requires ns != []
    ensures forall g :: g in TilesOf(ns) <==> g == ns[0].tiles || g in TilesOf(ns[1..])
  {
    TilesOfFirst(ns);
  }

  /** After the loop, the visited set is the old one plus every neighbour's grid. */
  lemma {:induction false} DiscoverVisited(visited: set<Grid>, ns: seq<PuzzleBoard>)
    ensures forall g :: g in Discover(visited, ns).visited <==> g in visited || g in TilesOf(ns)
    decreases |ns|
  {
    if ns != [] {
      TilesOfCons(ns);
      if ns[0].tiles in visited {
        DiscoverVisited(visited, ns[1..]);
      } else {
        DiscoverVisited(visited + {ns[0].tiles}, ns[1..]);
      }
    }
  }

  /** Every enqueued board is a neighbour whose grid was not visited before. */
  lemma {:induction false} DiscoverAddsNew(visited: set<Grid>, ns: seq<PuzzleBoard>)
    ensures forall k :: 0 <= k < |Discover(visited, ns).added| ==>
              Discover(visited, ns).added[k] in ns && Discover(visited, ns).added[k].tiles !in visited
    decreases |ns|
  {
    if ns != [] {
      var r := Discover(visited, ns);
      if ns[0].tiles in visited {
        assert r == Discover(visited, ns[1..]);
        DiscoverAddsNew(visited, ns[1..]);
        forall k | 0 <= k < |r.added|
          ensures r.added[k] in ns && r.added[k].tiles !in visited
        {
          assert r.added[k] in ns[1..];
        }
      } else {
        var v' := visited + {ns[0].tiles};
        var rest := Discover(v', ns[1..]);
        assert r == Discovery(rest.visited, [ns[0]] + rest.added);
        DiscoverAddsNew(v', ns[1..]);
        forall k | 0 <= k < |r.added|
          ensures r.added[k] in ns && r.added[k].tiles !in visited
        {
          if k > 0 {
            assert r.added[k] == rest.added[k - 1];
            assert rest.added[k - 1] in ns[1..];
          }
        }
      }
    }
  }

  /** No grid is enqueued twice by one expansion. */
  lemma {:induction false} DiscoverDistinct(visited: set<Grid>, ns: seq<PuzzleBoard>)
    ensures NoDuplicates(TilesOf(Discover(visited, ns).added))
    decreases |ns|
  {
    if ns != [] {
      var r := Discover(visited, ns);
      if ns[0].tiles in visited {
        assert r == Discover(visited, ns[1..]);
        DiscoverDistinct(visited, ns[1..]);
      } else {
        var v' := visited + {ns[0].tiles};
        var rest := Discover(v', ns[1..]);
        assert r == Discovery(rest.visited, [ns[0]] + rest.added);
        DiscoverDistinct(v', ns[1..]);
        DiscoverAddsNew(v', ns[1..]);
        forall a, b | 0 <= a < b < |r.added|
          ensures r.added[a].tiles != r.added[b].tiles
        {
          assert r.added[b] == rest.added[b - 1];
          if a > 0 {
            assert r.added[a] == rest.added[a - 1];
          }
        }
      }
    }
  }

  /** Every neighbour whose grid was not visited has its grid enqueued. */
  lemma {:induction false} DiscoverAddsAll(visited: set<Grid>, ns: seq<PuzzleBoard>)
    ensures forall b :: b in ns && b.tiles !in visited ==> b.tiles in TilesOf(Discover(visited, ns).added)
    decreases |ns|
  {
    if ns != [] {
      var r := Discover(visited, ns);
      if ns[0].tiles in visited {
        assert r == Discover(visited, ns[1..]);
        DiscoverAddsAll(visited, ns[1..]);
        forall b | b in ns && b.tiles !in visited
          ensures b.tiles in TilesOf(r.added)
        {
          assert b in ns[1..];
        }
      } else {
        var v' := visited + {ns[0].tiles};
        var rest := Discover(v', ns[1..]);
        assert r == Discovery(rest.visited, [ns[0]] + rest.added);
        DiscoverAddsAll(v', ns[1..]);
        TilesOfCons(r.added);
        assert r.added[1..] == rest.added;
        forall b | b in ns && b.tiles !in visited
          ensures b.tiles in TilesOf(r.added)
        {
          if b.tiles != ns[0].tiles {
            assert b in ns[1..];
          }
        }
      }
    }
  }

  /** All sequences of length `len` over `alphabet`. */
  ghost function Words<T>(len: nat, alphabet: set<T>): set<seq<T>> {
    if len == 0 then {[]}
    else set w, x | w in Words(len - 1, alphabet) && x in alphabet :: w + [x]
  }

  lemma {:induction false} WordsComplete<T>(len: nat, alphabet: set<T>, w: seq<T>)
    requires |w| == len && forall k :: 0 <= k < len ==> w[k] in alphabet
    ensures w in Words(len, alphabet)
  {
    if len > 0 {
      WordsComplete(len - 1, alphabet, w[..len - 1]);
      assert w == w[..len - 1] + [w[len - 1]];
    }
  }

  /** A finite set holding every `n` x `n` grid whose values are those of `start`. */
  ghost function Universe(n: nat, start: Grid): set<Grid> {
    Words(n, Words(n, set x | x in Cells(start)))
  }

  lemma InUniverse(n: nat, start: Grid, g: Grid)
    requires WellShaped(n, g) && Cells(g) == Cells(start)
    ensures g in Universe(n, start)
  {
    var vals := set x | x in Cells(start);
    forall i | 0 <= i < n
      ensures g[i] in Words(n, vals)
    {
      forall j | 0 <= j < n
        ensures g[i][j] in vals
      {
        CellInCells(g, i, j);
      }
      WordsComplete(n, vals, g[i]);
    }
    WordsComplete(n, Words(n, vals), g);
  }

  /** A neighbour of a reachable board is reachable in one more move and keeps its shape and values. */
  lemma NeighborFacts(n: nat, start: Grid, current: PuzzleBoard, d: nat, b: PuzzleBoard)
    requires Valid(current) && current.size == n && Neighbors(current).Some?
    requires ReachableIn(n, start, current.tiles, d) && Cells(current.tiles) == Cells(start)
    requires b in Neighbors(current).value
    ensures b.size == n && Valid(b) && Cells(b.tiles) == Cells(start)
    ensures ReachableIn(n, start, b.tiles, d + 1)
    ensures HasBlank(b.tiles)
  {
    var ns := Neighbors(current).value;
    NeighborsIgnoreCost(current);
    var m :| 0 <= m < |ns| && ns[m] == b;
    assert b.tiles == TilesOf(ns)[m];
    NeighborIsSlide(n, current.tiles, b.tiles);
    SlideKeepsShapeAndCells(n, current.tiles, b.tiles);
    SlideTargetHasBlank(n, current.tiles, b.tiles);
    ReachableStep(n, start, current.tiles, b.tiles, d);
  }

  /** What one expansion of `current` adds: reachable, well-shaped, new, distinct grids. */
  lemma AddedFacts(n: nat, start: Grid, current: PuzzleBoard, d: nat, visited: set<Grid>, found: Discovery)
    requires Valid(current) && current.size == n && Neighbors(current).Some?
    requires ReachableIn(n, start, current.tiles, d) && Cells(current.tiles) == Cells(start)
    requires found == Discover(visited, Neighbors(current).value)
    ensures forall k :: 0 <= k < |found.added| ==>
              && found.added[k].size == n && Valid(found.added[k])
              && Cells(found.added[k].tiles) == Cells(start)
              && ReachableIn(n, start, found.added[k].tiles, d + 1)
              && HasBlank(found.added[k].tiles)
              && found.added[k].tiles !in visited
    ensures NoDuplicates(TilesOf(found.added))
  {
    var ns := Neighbors(current).value;
    DiscoverAddsNew(visited, ns);
    DiscoverDistinct(visited, ns);
    forall k | 0 <= k < |found.added|
      ensures && found.added[k].size == n && Valid(found.added[k])
              && Cells(found.added[k].tiles) == Cells(start)
              && ReachableIn(n, start, found.added[k].tiles, d + 1)
              && HasBlank(found.added[k].tiles)
    {
      NeighborFacts(n, start, current, d, found.added[k]);
    }
  }

  /** After one expansion, the visited set grew by exactly the enqueued grids. */
  lemma VisitedFacts(visited: set<Grid>, ns: seq<PuzzleBoard>, found: Discovery)
    requires found == Discover(visited, ns)
    ensures forall g :: g in found.visited <==> g in visited || g in TilesOf(found.added)
  {
    DiscoverVisited(visited, ns);
    DiscoverAddsNew(visited, ns);
    DiscoverAddsAll(visited, ns);
    forall g | g in found.visited
      ensures g in visited || g in TilesOf(found.added)
    {
      if g !in visited {
        var m :| 0 <= m < |ns| && TilesOf(ns)[m] == g;
        assert ns[m] in ns && ns[m].tiles == g;
      }
    }
    forall g | g in TilesOf(found.added)
      ensures g in found.visited
    {
      var k :| 0 <= k < |found.added| && TilesOf(found.added)[k] == g;
      var b := found.added[k];
      assert b in ns;
      var m :| 0 <= m < |ns| && ns[m] == b;
      assert TilesOf(ns)[m] == g;
    }
  }

  /** After one expansion, every slide out of `current` is visited. */
  lemma SlidesVisited(n: nat, current: PuzzleBoard, visited: set<Grid>, found: Discovery)
    requires Valid(current) && current.size == n && Neighbors(current).Some?
    requires found == Discover(visited, Neighbors(current).value)
    ensures forall h :: IsSlide(n, current.tiles, h) ==> h in found.visited
  {
    var ns := Neighbors(current).value;
    NeighborsIgnoreCost(current);
    DiscoverVisited(visited, ns);
    forall h | IsSlide(n, current.tiles, h)
      ensures h in found.visited
    {
      SlideIsNeighbor(n, current.tiles, h);
    }
  }

  /**
    What one expansion of the grid `current`, reached in `d` moves, did: it
    enqueued new, distinct, reachable grids with a blank, and marked them and
    every slide out of `current` visited.
   */
  ghost predicate Discovered(n: nat, start: Grid, current: Grid, d: nat, visited: set<Grid>, found: Discovery) {
    && (forall k :: 0 <= k < |found.added| ==>
          && found.added[k].size == n && Valid(found.added[k])
          && Cells(found.added[k].tiles) == Cells(start)
          && ReachableIn(n, start, found.added[k].tiles, d + 1)
          && HasBlank(found.added[k].tiles)
          && found.added[k].tiles !in visited)
    && NoDuplicates(TilesOf(found.added))
    && (forall h :: IsSlide(n, current, h) ==> h in found.visited)
    && (forall g :: g in found.visited <==> g in visited || g in TilesOf(found.added))
  }

  /** One expansion as Discovered states it; it stays inside the universe and shrinks what is left of it whenever it enqueues. */
  lemma ExpansionFacts(n: nat, start: Grid, current: PuzzleBoard, d: nat, visited: set<Grid>, found: Discovery)
    requires Valid(current) && current.size == n && Neighbors(current).Some?
    requires ReachableIn(n, start, current.tiles, d) && Cells(current.tiles) == Cells(start)
    requires found == Discover(visited, Neighbors(current).value)
    requires visited <= Universe(n, start)
    ensures Discovered(n, start, current.tiles, d, visited, found)
    ensures found.visited <= Universe(n, start)
    ensures found.added == [] ==> found.visited == visited
    ensures found.added != [] ==> Universe(n, start) - found.visited < Universe(n, start) - visited
  {
    AddedFacts(n, start, current, d, visited, found);
    VisitedFacts(visited, Neighbors(current).value, found);
    SlidesVisited(n, current, visited, found);
    var u := Universe(n, start);
    forall k | 0 <= k < |found.added|
      ensures TilesOf(found.added)[k] in u
    {
      InUniverse(n, start, found.added[k].tiles);
    }
    Shrink(u, visited, found.visited, TilesOf(found.added));
  }

  /** Adding new members of `u` to a subset of `u` keeps it a subset, and shrinks the rest of `u` if any were added. */
  lemma Shrink<T>(u: set<T>, visited: set<T>, visited': set<T>, added: seq<T>)
    requires visited <= u
    requires forall k :: 0 <= k < |added| ==> added[k] in u && added[k] !in visited
    requires forall g :: g in visited' <==> g in visited || g in added
    ensures visited' <= u
    ensures added == [] ==> visited' == visited
    ensures added != [] ==> u - visited' < u - visited
  {
    if added != [] {
      assert added[0] in u - visited;
      assert added[0] !in u - visited';
    }
  }

  /** A sequence without duplicates is as long as the set of its elements. */
  lemma {:induction false} DistinctSize<T>(s: seq<T>, v: set<T>)
    requires NoDuplicates(s)
    requires forall x :: x in v <==> x in s
    ensures |v| == |s|
    decreases |s|
  {
    if s != [] {
      var last := s[|s| - 1];
      var s' := s[..|s| - 1];
      forall x | x in v - {last}
        ensures x in s'
      {
        var k :| 0 <= k < |s| && s[k] == x;
        assert k < |s| - 1;
        assert s'[k] == x;
      }
      forall x | x in s'
        ensures x in v - {last}
      {
        var k :| 0 <= k < |s'| && s'[k] == x;
        assert s[k] == x;
      }
      DistinctSize(s', v - {last});
    }
  }

  /**
    What a breadth-first run has established when it stops: `trace` lists
    the grids it popped, in order, each once, starting at `start`; every
    popped grid but the last was not the solved grid; every visited grid is
    reachable; and the popped grids come in non-decreasing order of their
    depth, the least number of moves that reaches them from `start`.
   */
  ghost predicate BreadthFirstTrace(n: nat, start: Grid, visited: set<Grid>, trace: seq<Grid>, depth: seq<nat>) {
    && start in visited
    && 1 <= |trace| <= |visited|
    && trace[0] == start
    && NoDuplicates(trace)
    && (forall g :: g in visited ==> Reachable(n, start, g))
    && |depth| == |trace|
    && (forall k :: 0 <= k < |trace| ==> ReachableIn(n, start, trace[k], depth[k]))
    && (forall k, m: nat :: 0 <= k < |trace| && ReachableIn(n, start, trace[k], m) ==> depth[k] <= m)
    && (forall a, b :: 0 <= a < b < |depth| ==> depth[a] <= depth[b])
    && (forall k :: 0 <= k < |trace| - 1 ==> trace[k] != SolvedGrid(n))
  }

  /** `len` copies of `x`. */
  function Repeat(len: nat, x: nat): (r: seq<nat>)
    ensures |r| == len && forall k :: 0 <= k < len ==> r[k] == x
  {
    seq(len, _ => x)
  }

  /** The queue holds the boards of `order` not yet popped, in order. */
  ghost predicate QueueMatches(n: nat, queue: seq<PuzzleBoard>, order: seq<Grid>, popped: nat) {
    && popped <= |order|
    && |queue| == |order| - popped
    && forall k :: 0 <= k < |queue| ==>
         queue[k].tiles == order[popped + k] && queue[k].size == n && Valid(queue[k])
  }

  /** `order` lists the visited grids, each once, in the order they were enqueued. */
  ghost predicate OrderMatchesVisited(n: nat, start: Grid, order: seq<Grid>, visited: set<Grid>) {
    && |order| >= 1 && order[0] == start
    && NoDuplicates(order)
    && (forall g :: g in visited <==> g in order)
    && (forall g :: g in visited ==> WellShaped(n, g) && Cells(g) == Cells(start))
    && (forall k :: 1 <= k < |order| ==> HasBlank(order[k]))
  }

  /** Each enqueued grid is reached in its level's number of moves, and the levels never drop nor jump. */
  ghost predicate Levels(n: nat, start: Grid, order: seq<Grid>, level: seq<nat>, popped: nat) {
    && |level| == |order|
    && (forall k :: 0 <= k < |order| ==> ReachableIn(n, start, order[k], level[k]))
    && (forall a, b :: 0 <= a < b < |level| ==> level[a] <= level[b])
    && (popped < |level| ==> level[|level| - 1] <= level[popped] + 1)
  }

  /** Every popped grid was unsolved and had all its neighbours visited. */
  ghost predicate Expanded(n: nat, order: seq<Grid>, popped: nat, visited: set<Grid>) {
    && popped <= |order|
    && forall k :: 0 <= k < popped ==>
         && order[k] != SolvedGrid(n)
         && forall h :: IsSlide(n, order[k], h) ==> h in visited
  }

  /** No grid of `order` is reachable in fewer moves than its level: levels are breadth-first distances. */
  ghost predicate Shortest(n: nat, start: Grid, order: seq<Grid>, level: seq<nat>) {
    && |level| == |order|
    && forall k, m: nat :: 0 <= k < |order| && ReachableIn(n, start, order[k], m) ==> level[k] <= m
  }

  lemma QueueStep(n: nat, queue: seq<PuzzleBoard>, order: seq<Grid>, popped: nat, added: seq<PuzzleBoard>)
    requires QueueMatches(n, queue, order, popped) && queue != []
    requires forall k :: 0 <= k < |added| ==> added[k].size == n && Valid(added[k])
    ensures QueueMatches(n, queue[1..] + added, order + TilesOf(added), popped + 1)
  {
    var q' := queue[1..] + added;
    var o' := order + TilesOf(added);
    forall k | 0 <= k < |q'|
      ensures q'[k].tiles == o'[popped + 1 + k] && q'[k].size == n && Valid(q'[k])
    {
      if k < |queue| - 1 {
        assert q'[k] == queue[k + 1];
      } else {
        assert q'[k] == added[k - (|queue| - 1)];
      }
    }
  }

  lemma OrderStep(n: nat, start: Grid, order: seq<Grid>, visited: set<Grid>, added: seq<PuzzleBoard>, visited': set<Grid>)
    requires OrderMatchesVisited(n, start, order, visited)
    requires forall k :: 0 <= k < |added| ==>
               && added[k].size == n && Valid(added[k])
               && Cells(added[k].tiles) == Cells(start)
               && HasBlank(added[k].tiles)
               && added[k].tiles !in visited
    requires NoDuplicates(TilesOf(added))
    requires forall g :: g in visited' <==> g in visited || g in TilesOf(added)
    ensures OrderMatchesVisited(n, start, order + TilesOf(added), visited')
  {
    var o' := order + TilesOf(added);
    forall a, b | 0 <= a < b < |o'|
      ensures o'[a] != o'[b]
    {
      if b >= |order| && a < |order| {
        assert o'[a] in visited;
      }
    }
    forall g | g in visited'
      ensures WellShaped(n, g) && Cells(g) == Cells(start)
    {
      if g !in visited {
        var k :| 0 <= k < |added| && TilesOf(added)[k] == g;
      }
    }
    forall k | 1 <= k < |o'|
      ensures HasBlank(o'[k])
    {
      if k >= |order| {
        assert o'[k] == added[k - |order|].tiles;
      }
    }
  }

  lemma LevelStep(n: nat, start: Grid, order: seq<Grid>, level: seq<nat>, popped: nat, added: seq<PuzzleBoard>)
    requires Levels(n, start, order, level, popped) && popped < |order|
    requires forall k :: 0 <= k < |added| ==> ReachableIn(n, start, added[k].tiles, level[popped] + 1)
    ensures Levels(n, start, order + TilesOf(added), level + Repeat(|added|, level[popped] + 1), popped + 1)
  {
    var d := level[popped];
    var l' := level + Repeat(|added|, d + 1);
    var o' := order + TilesOf(added);
    forall k | 0 <= k < |o'|
      ensures ReachableIn(n, start, o'[k], l'[k])
    {
      if k >= |order| {
        assert o'[k] == added[k - |order|].tiles && l'[k] == d + 1;
      } else {
        assert o'[k] == order[k] && l'[k] == level[k];
      }
    }
    forall a, b | 0 <= a < b < |l'|
      ensures l'[a] <= l'[b]
    {
      if b >= |level| {
        assert l'[b] == d + 1;
        if a < |level| {
          assert level[a] <= level[|level| - 1];
        }
      }
    }
    if popped + 1 < |l'| && |added| == 0 {
      assert level[popped] <= level[popped + 1];
    }
  }

  lemma ExpandedStep(n: nat, order: seq<Grid>, popped: nat, visited: set<Grid>, added: seq<Grid>, visited': set<Grid>)
    requires Expanded(n, order, popped, visited) && popped < |order|
    requires order[popped] != SolvedGrid(n)
    requires forall h :: IsSlide(n, order[popped], h) ==> h in visited'
    requires visited <= visited'
    ensures Expanded(n, order + added, popped + 1, visited')
  {
    var o' := order + added;
    forall k | 0 <= k < popped + 1
      ensures && o'[k] != SolvedGrid(n)
              && forall h :: IsSlide(n, o'[k], h) ==> h in visited'
    {
      assert o'[k] == order[k];
    }
  }

  /** What holds of the popped prefix of `order` whenever the search stops. */
  lemma TraceFacts(n: nat, start: Grid, order: seq<Grid>, level: seq<nat>, visited: set<Grid>, popped: nat)
    requires OrderMatchesVisited(n, start, order, visited)
    requires Levels(n, start, order, level, popped) && Shortest(n, start, order, level)
    requires 1 <= popped <= |order|
    requires forall k :: 0 <= k < popped - 1 ==> order[k] != SolvedGrid(n)
    ensures BreadthFirstTrace(n, start, visited, order[..popped], level[..popped])
  {
    var trace := order[..popped];
    DistinctSize(order, visited);
    assert order[0] in order;
    forall g | g in visited
      ensures Reachable(n, start, g)
    {
      var k :| 0 <= k < |order| && order[k] == g;
      assert ReachableIn(n, start, order[k], level[k]);
    }
    forall k, m: nat | 0 <= k < |trace| && ReachableIn(n, start, trace[k], m)
      ensures level[..popped][k] <= m
    {
      assert trace[k] == order[k];
    }
  }

  /** One expansion of the front of the queue keeps the queue and the visited order in step. */
  lemma QueueOrderStep(n: nat, start: Grid, queue: seq<PuzzleBoard>, order: seq<Grid>, popped: nat, d: nat,
                       visited: set<Grid>, found: Discovery)
    requires QueueMatches(n, queue, order, popped) && queue != []
    requires OrderMatchesVisited(n, start, order, visited)
    requires Discovered(n, start, order[popped], d, visited, found)
    ensures QueueMatches(n, queue[1..] + found.added, order + TilesOf(found.added), popped + 1)
    ensures OrderMatchesVisited(n, start, order + TilesOf(found.added), found.visited)
  {
    QueueStep(n, queue, order, popped, found.added);
    OrderStep(n, start, order, visited, found.added, found.visited);
  }

  /** One expansion of the unsolved grid at `popped` keeps the levels and the expanded prefix. */
  lemma LevelExpandedStep(n: nat, start: Grid, order: seq<Grid>, level: seq<nat>, popped: nat,
                          visited: set<Grid>, found: Discovery)
    requires Levels(n, start, order, level, popped) && Expanded(n, order, popped, visited) && popped < |order|
    requires order[popped] != SolvedGrid(n)
    requires Discovered(n, start, order[popped], level[popped], visited, found)
    ensures Levels(n, start, order + TilesOf(found.added), level + Repeat(|found.added|, level[popped] + 1), popped + 1)
    ensures Expanded(n, order + TilesOf(found.added), popped + 1, found.visited)
  {
    LevelStep(n, start, order, level, popped, found.added);
    ExpandedStep(n, order, popped, visited, TilesOf(found.added), found.visited);
  }

  /** The invariant of the search loop, over the state it keeps between iterations. */
  ghost predicate Searching(n: nat, start: Grid, queue: seq<PuzzleBoard>, order: seq<Grid>, level: seq<nat>,
                            popped: nat, visited: set<Grid>) {
    && QueueMatches(n, queue, order, popped)
    && OrderMatchesVisited(n, start, order, visited)
    && Levels(n, start, order, level, popped)
    && Shortest(n, start, order, level)
    && Expanded(n, order, popped, visited)
  }

  /** A grid whose level is below the front's was popped before it. */
  lemma BeforeFront(order: seq<Grid>, level: seq<nat>, popped: nat, k: nat)
    requires |level| == |order| && (forall a, b :: 0 <= a < b < |level| ==> level[a] <= level[b])
    requires popped < |order| && k < |order| && level[k] < level[popped]
    ensures k < popped
  {
  }

  /**
    Every grid reachable in fewer moves than the level of the front of the
    queue has been popped already: it comes before `popped` in `order`.
   */
  lemma {:induction false} BelowFrontExpanded(n: nat, start: Grid, order: seq<Grid>, level: seq<nat>, popped: nat,
                                              visited: set<Grid>, g: Grid, m: nat) returns (j: nat)
    requires OrderMatchesVisited(n, start, order, visited) && Levels(n, start, order, level, popped)
    requires Shortest(n, start, order, level) && Expanded(n, order, popped, visited)
    requires popped < |order| && ReachableIn(n, start, g, m) && m < level[popped]
    ensures j < popped && order[j] == g
    decreases m
  {
    if m == 0 {
      ReachableInZero(n, start, g);
      ReachableStart(n, start);
      assert level[0] <= 0;
      j := 0;
    } else {
      var prev := ReachablePrevious(n, start, g, m);
      var i := BelowFrontExpanded(n, start, order, level, popped, visited, prev, m - 1);
      assert IsSlide(n, order[i], g);
      assert g in visited;
      var k :| 0 <= k < |order| && order[k] == g;
      assert level[k] <= m;
      j := k;
    }
    BeforeFront(order, level, popped, j);
  }

  /** Every grid reachable in at most the level of the front of the queue has been visited. */
  lemma FrontVisited(n: nat, start: Grid, order: seq<Grid>, level: seq<nat>, popped: nat,
                     visited: set<Grid>, g: Grid, m: nat)
    requires OrderMatchesVisited(n, start, order, visited) && Levels(n, start, order, level, popped)
    requires Shortest(n, start, order, level) && Expanded(n, order, popped, visited)
    requires popped < |order| && ReachableIn(n, start, g, m) && m <= level[popped]
    ensures g in visited
  {
    if m == 0 {
      ReachableInZero(n, start, g);
      assert order[0] in order;
    } else {
      var prev := ReachablePrevious(n, start, g, m);
      var j := BelowFrontExpanded(n, start, order, level, popped, visited, prev, m - 1);
      assert IsSlide(n, order[j], g);
    }
  }

  /**
    Enqueuing unvisited grids one level below the front keeps every level a
    breadth-first distance: a grid reachable in fewer moves would have been
    visited already.
   */
  lemma ShortestStep(n: nat, start: Grid, order: seq<Grid>, level: seq<nat>, popped: nat,
                     visited: set<Grid>, added: seq<PuzzleBoard>)
    requires OrderMatchesVisited(n, start, order, visited) && Levels(n, start, order, level, popped)
    requires Shortest(n, start, order, level) && Expanded(n, order, popped, visited)
    requires popped < |order|
    requires forall k :: 0 <= k < |added| ==> added[k].tiles !in visited
    ensures Shortest(n, start, order + TilesOf(added), level + Repeat(|added|, level[popped] + 1))
  {
    var order' := order + TilesOf(added);
    var level' := level + Repeat(|added|, level[popped] + 1);
    forall k, m: nat | 0 <= k < |order'| && ReachableIn(n, start, order'[k], m)
      ensures level'[k] <= m
    {
      if k < |order| {
        assert order'[k] == order[k] && level'[k] == level[k];
      } else {
        assert order'[k] == added[k - |order|].tiles;
        if m <= level[popped] {
          FrontVisited(n, start, order, level, popped, visited, order'[k], m);
          assert false;
        }
      }
    }
  }

  /**
    One iteration of the search loop on an unsolved front board with a blank
    keeps the invariant, and either shrinks the queue without visiting
    anything or visits a new grid of the universe.
   */
  lemma ExpandFacts(n: nat, start: Grid, queue: seq<PuzzleBoard>, order: seq<Grid>, level: seq<nat>, popped: nat,
                    visited: set<Grid>, found: Discovery)
    requires Searching(n, start, queue, order, level, popped, visited) && queue != []
    requires !IsSolved(queue[0]) && Neighbors(queue[0]).Some?
    requires found == Discover(visited, Neighbors(queue[0]).value)
    requires visited <= Universe(n, start)
    ensures Searching(n, start, queue[1..] + found.added, order + TilesOf(found.added),
                      level + Repeat(|found.added|, level[popped] + 1), popped + 1, found.visited)
    ensures found.visited <= Universe(n, start)
    ensures (found.visited == visited && found.added == []) || Universe(n, start) - found.visited < Universe(n, start) - visited
  {
    var current := queue[0];
    assert current.tiles == order[popped];
    ExpansionFacts(n, start, current, level[popped], visited, found);
    QueueOrderStep(n, start, queue, order, popped, level[popped], visited, found);
    LevelExpandedStep(n, start, order, level, popped, visited, found);
    ShortestStep(n, start, order, level, popped, visited, found.added);
  }

  /** The loop invariants hold for the queue holding only the initial board. */
  lemma InitialFacts(initial: PuzzleBoard)
    requires Valid(initial)
    ensures Searching(initial.size, initial.tiles, [initial], [initial.tiles], [0], 0, {initial.tiles})
    ensures {initial.tiles} <= Universe(initial.size, initial.tiles)
  {
    ReachableStart(initial.size, initial.tiles);
    InUniverse(initial.size, initial.tiles, initial.tiles);
  }

  /** Popping a solved board ends the search with that board last in the trace. */
  lemma SolvedExit(n: nat, start: Grid, queue: seq<PuzzleBoard>, order: seq<Grid>, level: seq<nat>, visited: set<Grid>, popped: nat)
    requires Searching(n, start, queue, order, level, popped, visited) && queue != []
    ensures Valid(queue[0]) && queue[0].size == n
    ensures BreadthFirstTrace(n, start, visited, order[..popped + 1], level[..popped + 1])
    ensures var trace := order[..popped + 1]; queue[0].tiles == trace[|trace| - 1]
  {
    TraceFacts(n, start, order, level, visited, popped + 1);
  }

  /** Only the initial board can lack a blank: every enqueued board is the result of a slide. */
  lemma NoBlankExit(n: nat, start: Grid, queue: seq<PuzzleBoard>, order: seq<Grid>, level: seq<nat>, visited: set<Grid>, popped: nat)
    requires Searching(n, start, queue, order, level, popped, visited) && queue != []
    requires FindEmptySpace(queue[0]).None?
    ensures popped == 0 && queue[0].tiles == start
    ensures BreadthFirstTrace(n, start, visited, order[..1], level[..1])
  {
    var b := queue[0];
    assert b.tiles == order[popped];
    TraceFacts(n, start, order, level, visited, 1);
  }

  /** When the queue runs dry, every grid reachable from the start has been visited, and none was solved. */
  lemma ExhaustedFacts(n: nat, start: Grid, order: seq<Grid>, level: seq<nat>, visited: set<Grid>, popped: nat)
    requires Searching(n, start, [], order, level, popped, visited)
    ensures popped == |order| >= 1
    ensures BreadthFirstTrace(n, start, visited, order[..popped], level[..popped])
    ensures forall g :: g in visited ==> g in order[..popped] && g != SolvedGrid(n)
    ensures forall g :: Reachable(n, start, g) ==> g != SolvedGrid(n)
  {
    TraceFacts(n, start, order, level, visited, popped);
    assert order[..popped] == order;
    forall g, h | g in visited && IsSlide(n, g, h)
      ensures h in visited
    {
      var k :| 0 <= k < |order| && order[k] == g;
    }
    assert start == order[0];
    ClosedSetHoldsReachable(n, start, visited);
  }
}

=== FILE: grids.dfy ===
/**
  Square integer grids: the storage of a puzzle board (`int[size][size]` in
  the Java code), with single-cell updates and the multiset of cell values.
 */
module Grids {

  type Grid = seq<seq<int>>

  /** `g` has `n` rows of `n` cells each, as every constructor allocates it. */
  predicate WellShaped(n: nat, g: Grid) {
    |g| == n && forall i :: 0 <= i < n ==> |g[i]| == n
  }

  /** Some cell of `g` holds the blank, 0. */
  predicate HasBlank(g: Grid) {
    exists i, j :: 0 <= i < |g| && 0 <= j < |g[i]| && g[i][j] == 0
  }

  /** `g` with cell (i, j) replaced by `v`; every other cell is unchanged. */
  function SetCell(n: nat, g: Grid, i: nat, j: nat, v: int): (r: Grid)
    requires WellShaped(n, g) && i < n && j < n
    ensures WellShaped(n, r)
    ensures r[i][j] == v
    ensures forall a, b :: 0 <= a < n && 0 <= b < n && (a != i || b != j) ==> r[a][b] == g[a][b]
  {
    g[i := g[i][j := v]]
  }

  /** Two well-shaped grids that agree on every cell are the same grid. */
  lemma Extensionality(n: nat, g: Grid, h: Grid)
    requires WellShaped(n, g) && WellShaped(n, h)
    requires forall a, b :: 0 <= a < n && 0 <= b < n ==> g[a][b] == h[a][b]
    ensures g == h
  {
    forall a | 0 <= a < n
      ensures g[a] == h[a]
    {
      assert forall b :: 0 <= b < n ==> g[a][b] == h[a][b];
    }
  }

  /** The multiset of all cell values, row by row. */
  function Cells(g: Grid): multiset<int> {
    if g == [] then multiset{} else multiset(g[0]) + Cells(g[1..])
  }

  /** Replacing one row replaces that row's values in `Cells`. */
  lemma {:induction false} CellsUpdateRow(g: Grid, r: nat, row: seq<int>)
    requires r < |g|
    ensures Cells(g[r := row]) + multiset(g[r]) == Cells(g) + multiset(row)
    decreases |g|
  {
    var h := g[r := row];
    assert Cells(h) == multiset(h[0]) + Cells(h[1..]);
    if r == 0 {
      assert h[1..] == g[1..];
    } else {
      assert h[0] == g[0] && g[1..][r - 1] == g[r];
      assert h[1..] == g[1..][r - 1 := row];
      assert Cells(g) == multiset(g[0]) + Cells(g[1..]);
      CellsUpdateRow(g[1..], r - 1, row);
      calc {
        Cells(h) + multiset(g[r]);
        multiset(g[0]) + (Cells(g[1..][r - 1 := row]) + multiset(g[1..][r - 1]));
        multiset(g[0]) + (Cells(g[1..]) + multiset(row));
        Cells(g) + multiset(row);
      }
    }
  }

  /** Setting one cell trades its old value in `Cells` for the new one. */
  lemma CellsSetCell(n: nat, g: Grid, i: nat, j: nat, v: int)
    requires WellShaped(n, g) && i < n && j < n
    ensures Cells(SetCell(n, g, i, j, v)) + multiset{g[i][j]} == Cells(g) + multiset{v}
  {
    var row := g[i][j := v];
    assert SetCell(n, g, i, j, v) == g[i := row];
    CellsUpdateRow(g, i, row);
    MultisetUpdate(g[i], j, v);
    Trade(Cells(g[i := row]), Cells(g), multiset(g[i]), multiset(row), g[i][j], v);
  }

  /** If `c'` trades `r` for `r'` in `c`, and `r'` trades `x` for `y` in `r`, then `c'` trades `x` for `y` in `c`. */
  lemma Trade(c': multiset<int>, c: multiset<int>, r: multiset<int>, r': multiset<int>, x: int, y: int)
    requires c' + r == c + r'
    requires r' + multiset{x} == r + multiset{y}
    ensures c' + multiset{x} == c + multiset{y}
  {
    forall e
      ensures (c' + multiset{x})[e] == (c + multiset{y})[e]
    {
      assert (c' + r)[e] == (c + r')[e];
      assert (r' + multiset{x})[e] == (r + multiset{y})[e];
    }
  }

  lemma {:induction false} MultisetUpdate(s: seq<int>, j: nat, v: int)
    requires j < |s|
    ensures multiset(s[j := v]) + multiset{s[j]} == multiset(s) + multiset{v}
  {
    var t := s[j := v];
    assert s == s[..j] + [s[j]] + s[j + 1..];
    assert t == s[..j] + [v] + s[j + 1..];
  }

  lemma MultisetCancel(a: multiset<int>, b: multiset<int>, x: int)
    requires a + multiset{x} == b + multiset{x}
    ensures a == b
  {
    forall e
      ensures a[e] == b[e]
    {
      assert (a + multiset{x})[e] == (b + multiset{x})[e];
    }
  }

  /** Each cell value is among the grid's values. */
  lemma {:induction false} CellInCells(g: Grid, i: nat, j: nat)
    requires i < |g| && j < |g[i]|
    ensures g[i][j] in Cells(g)
    decreases i
  {
    if i == 0 {
      assert g[0][j] in multiset(g[0]);
    } else {
      CellInCells(g[1..], i - 1, j);
    }
  }
}

=== FILE: heuristics.dfy ===
/**
  The heuristics of PuzzleGraph.java that A* is run with: the Manhattan
  distance and the zero function (which turns A* into uniform-cost search).
 */
module Heuristics {
  import opened Grids
  import opened Boards
  import opened SearchSpace

  /** Java's `/` on int: the quotient truncated toward zero. */
  function JavaDiv(a: int, b: int): (r: int)
    requires b > 0
    ensures a >= 0 ==> 0 <= b * r <= a < b * r + b
    ensures a < 0 ==> b * r - b < a <= b * r <= 0
  {
    if a >= 0 then
      NatDivBounds(a, b);
      a / b
    else
      NatDivBounds(-a, b);
      -((-a) / b)
  }

  /** The quotient of a natural number brackets it between two multiples of the divisor. */
  lemma NatDivBounds(a: nat, b: int)
    requires b > 0
    ensures 0 <= b * (a / b) <= a < b * (a / b) + b
  {
    var q := a / b;
    assert a == b * q + a % b;
    assert q >= 0;
    assert b * q >= 0;
  }

  /** Java's `%` on int: the remainder takes the sign of the dividend. */
  function JavaRem(a: int, b: int): (r: int)
    requires b > 0
    ensures a >= 0 ==> 0 <= r < b
    ensures a < 0 ==> -b < r <= 0
  {
    a - b * JavaDiv(a, b)
  }

  /** Math.abs, over unbounded integers. */
  function Abs(x: int): (r: int)
    ensures r >= 0 && (r == x || r == -x)
  {
    if x < 0 then -x else x
  }

  /** The Manhattan term of tile `v` standing at (i, j): zero for the blank. */
  function TileDistance(n: nat, i: int, j: int, v: int): (r: int)
    requires n > 0
    ensures r >= 0
    ensures v == 0 ==> r == 0
  {
    if v == 0 then 0 else Abs(i - JavaDiv(v - 1, n)) + Abs(j - JavaRem(v - 1, n))
  }

  /** The Manhattan terms of row `i`, from column `j` on. */
  function RowDistance(n: nat, row: seq<int>, i: int, j: nat): (r: int)
    requires n > 0 && j <= |row|
    ensures r >= 0
    ensures (forall k :: j <= k < |row| ==> row[k] == 0) ==> r == 0
    decreases |row| - j
  {
    if j == |row| then 0 else TileDistance(n, i, j, row[j]) + RowDistance(n, row, i, j + 1)
  }

  /** The Manhattan terms of rows `i` onwards. */
  function GridDistance(n: nat, g: Grid, i: nat): (r: int)
    requires WellShaped(n, g) && i <= n
    ensures r >= 0
    decreases n - i
  {
    if i == n then 0 else RowDistance(n, g[i], i, 0) + GridDistance(n, g, i + 1)
  }

  /** manhattanDistance: the sum, over all non-blank tiles, of the distance to their solved cell. */
  function ManhattanDistance(b: PuzzleBoard): (r: int)
    requires Valid(b)
    ensures r >= 0
    ensures IsSolved(b) ==> r == 0
  {
    ManhattanOfSolved(b.size);
    GridDistance(b.size, b.tiles, 0)
  }

  /** zeroFunction: the heuristic that estimates nothing. */
  function ZeroFunction(b: PuzzleBoard): (r: int)
    ensures r == 0
  {
    0
  }

  /** The heuristics A* is run with, dispatched by value. */
  datatype Heuristic = Manhattan | Zero

  function Estimate(h: Heuristic, b: PuzzleBoard): (r: int)
    requires Valid(b)
    ensures r >= 0
    ensures IsSolved(b) ==> r == 0
    ensures h == Zero ==> r == 0
  {
    match h
    case Manhattan => ManhattanDistance(b)
    case Zero => ZeroFunction(b)
  }

  lemma MulCancelLess(n: int, x: int, y: int)
    requires n > 0 && n * x < n * y
    ensures x < y
  {
  }

  /** Quotient and remainder by `n` are unique. */
  lemma DivModUnique(n: int, q: int, r: int, i: int, j: int)
    requires n > 0 && 0 <= r < n && 0 <= j < n && n * q + r == n * i + j
    ensures q == i
  {
    assert n * q < n * (i + 1) by {
      assert n * (i + 1) == n * i + n;
    }
    MulCancelLess(n, q, i + 1);
    assert n * i < n * (q + 1) by {
      assert n * (q + 1) == n * q + n;
    }
    MulCancelLess(n, i, q + 1);
  }

  /** The truncating quotient and remainder of a row-major index recover its cell. */
  lemma DivModOfCell(n: nat, i: nat, j: nat)
    requires 0 <= j < n
    ensures JavaDiv(i * n + j, n) == i && JavaRem(i * n + j, n) == j
  {
    var a := i * n + j;
    assert i * n == n * i && i * n >= 0;
    DivModUnique(n, a / n, a % n, i, j);
  }

  lemma {:induction false} RowDistanceZero(n: nat, row: seq<int>, i: nat, j: nat)
    requires n > 0 && j <= |row| == n && i < n
    requires forall c :: j <= c < n ==> row[c] == SolvedCell(n, i, c)
    ensures RowDistance(n, row, i, j) == 0
    decreases n - j
  {
    if j < n {
      if row[j] != 0 {
        DivModOfCell(n, i, j);
      }
      RowDistanceZero(n, row, i, j + 1);
    }
  }

  lemma {:induction false} GridDistanceZero(n: nat, i: nat)
    requires i <= n
    ensures GridDistance(n, SolvedGrid(n), i) == 0
    decreases n - i
  {
    if i < n {
      SolvedGridCells(n);
      RowDistanceZero(n, SolvedGrid(n)[i], i, 0);
      GridDistanceZero(n, i + 1);
    }
  }

  /** Every tile of the solved board stands on its own cell. */
  lemma ManhattanOfSolved(n: nat)
    ensures GridDistance(n, SolvedGrid(n), 0) == 0
  {
    GridDistanceZero(n, 0);
  }

  /** Changing one cell of a row changes its sum by that cell's terms only. */
  lemma {:induction false} RowDistanceSet(n: nat, row: seq<int>, i: int, j: nat, c: nat, v: int)
    requires n > 0 && j <= c < |row|
    ensures RowDistance(n, row[c := v], i, j) ==
            RowDistance(n, row, i, j) - TileDistance(n, i, c, row[c]) + TileDistance(n, i, c, v)
    decreases |row| - j
  {
    if j < c {
      RowDistanceSet(n, row, i, j + 1, c, v);
    } else {
      RowDistanceSame(n, row, row[c := v], i, j + 1);
    }
  }

  lemma {:induction false} RowDistanceSame(n: nat, row: seq<int>, row': seq<int>, i: int, j: nat)
    requires n > 0 && j <= |row| == |row'|
    requires forall c :: j <= c < |row| ==> row[c] == row'[c]
    ensures RowDistance(n, row, i, j) == RowDistance(n, row', i, j)
    decreases |row| - j
  {
    if j < |row| {
      RowDistanceSame(n, row, row', i, j + 1);
    }
  }

  /** Changing one cell of the grid changes the Manhattan sum by that cell's terms only. */
  lemma {:induction false} GridDistanceSet(n: nat, g: Grid, i: nat, r: nat, c: nat, v: int)
    requires WellShaped(n, g) && i <= r < n && c < n
    ensures GridDistance(n, SetCell(n, g, r, c, v), i) ==
            GridDistance(n, g, i) - TileDistance(n, r, c, g[r][c]) + TileDistance(n, r, c, v)
    decreases n - i
  {
    var h := SetCell(n, g, r, c, v);
    assert h == g[r := g[r][c := v]];
    if i < r {
      GridDistanceSet(n, g, i + 1, r, c, v);
    } else {
      RowDistanceSet(n, g[r], r, 0, c, v);
      GridDistanceSame(n, g, h, r + 1);
    }
  }

  lemma {:induction false} GridDistanceSame(n: nat, g: Grid, h: Grid, i: nat)
    requires WellShaped(n, g) && WellShaped(n, h) && i <= n
    requires forall a :: i <= a < n ==> g[a] == h[a]
    ensures GridDistance(n, g, i) == GridDistance(n, h, i)
    decreases n - i
  {
    if i < n {
      GridDistanceSame(n, g, h, i + 1);
    }
  }

  /** A tile moved by one cell changes its own term by exactly one. */
  lemma TileStep(n: nat, p: Position, d: Direction, v: int)
    requires n > 0 && v != 0
    ensures var q := Step(p, d);
            var diff := TileDistance(n, p.row, p.col, v) - TileDistance(n, q.row, q.col, v);
            diff == 1 || diff == -1
  {
  }

  /**
    One slide of a non-blank tile into the blank changes the Manhattan
    distance by exactly one: only that tile's row or column moves, by one.
   */
  lemma ManhattanSlide(n: nat, g: Grid, p: Position, d: Direction)
    requires WellShaped(n, g) && IsValidPosition(n, p) && IsValidPosition(n, Step(p, d))
    requires g[p.row][p.col] == 0
    requires var q := Step(p, d); g[q.row][q.col] != 0
    ensures var diff := GridDistance(n, Slide(n, g, p, Step(p, d)), 0) - GridDistance(n, g, 0);
            diff == 1 || diff == -1
  {
    var q := Step(p, d);
    var v := g[q.row][q.col];
    var g1 := SetCell(n, g, p.row, p.col, v);
    GridDistanceSet(n, g, 0, p.row, p.col, v);
    assert g1[q.row][q.col] == v;
    GridDistanceSet(n, g1, 0, q.row, q.col, 0);
    TileStep(n, q, Opposite(d), v);
    assert Step(q, Opposite(d)) == p;
  }

  /** Along a slide between boards with one blank, the Manhattan distance changes by exactly one. */
  lemma ManhattanSlideStep(n: nat, g: Grid, p: Position, d: Direction)
    requires WellShaped(n, g) && OneBlank(n, g) && IsValidPosition(n, p) && IsValidPosition(n, Step(p, d))
    requires g[p.row][p.col] == 0
    ensures var h := Slide(n, g, p, Step(p, d));
            && WellShaped(n, h) && OneBlank(n, h)
            && var diff := GridDistance(n, h, 0) - GridDistance(n, g, 0);
               diff == 1 || diff == -1
  {
    var q := Step(p, d);
    SlideKeepsOneBlank(n, g, p, q);
    assert g[q.row][q.col] != 0;
    ManhattanSlide(n, g, p, d);
  }

  /** Along a slide path from a board with one blank, the distance drops by at most one per slide. */
  lemma ManhattanAlongPath(n: nat, path: seq<Grid>, k: nat)
    requires IsPath(SlideRel(n), path) && k < |path|
    requires WellShaped(n, path[0]) && OneBlank(n, path[0])
    ensures WellShaped(n, path[k]) && OneBlank(n, path[k])
    ensures GridDistance(n, path[0], 0) <= k + GridDistance(n, path[k], 0)
  {
    var inv := (g: Grid) => WellShaped(n, g) && OneBlank(n, g);
    var f := (g: Grid) => if WellShaped(n, g) then GridDistance(n, g, 0) else 0;
    forall x, y | inv(x) && SlideRel(n)(x, y)
      ensures inv(y) && f(x) <= 1 + f(y)
    {
      var p, d := SlideWitness(n, x, y);
      ManhattanSlideStep(n, x, p, d);
    }
    PathBound(SlideRel(n), path, inv, f, k);
  }

  /**
    The Manhattan distance is admissible: on a board with one blank it never
    exceeds the number of slides of any path to the solved board.
   */
  lemma ManhattanAdmissible(b: PuzzleBoard, moves: nat)
    requires Valid(b) && OneBlank(b.size, b.tiles)
    requires ReachableIn(b.size, b.tiles, SolvedGrid(b.size), moves)
    ensures ManhattanDistance(b) <= moves
  {
    var n := b.size;
    var path :| IsPath(SlideRel(n), path) && |path| == moves + 1 && path[0] == b.tiles && path[moves] == SolvedGrid(n);
    ManhattanAlongPath(n, path, moves);
    ManhattanOfSolved(n);
  }
}

=== FILE: puzzle_board.dfy ===
/**
  The sliding-tile board of PuzzleBoard.java: a `size` x `size` grid of
  tiles with 0 for the blank, plus the search cost, which is plain data and
  not part of a board's identity.
 */
module Boards {
  import opened Wrappers
  import opened Grids

  datatype PuzzleBoard = PuzzleBoard(size: nat, tiles: Grid, cost: int)

  /** Every board the constructors build has exactly `size` rows of `size` tiles. */
  predicate Valid(b: PuzzleBoard) {
    WellShaped(b.size, b.tiles)
  }

  /** A cell of the grid (the `int[] {row, col}` pairs of the Java code). */
  datatype Position = Position(row: int, col: int)

  datatype Direction = Up | Down | Left | Right

  /** The order in which neighbours are generated. */
  const Directions: seq<Direction> := [Up, Down, Left, Right]

  /** generateNeighbors tries every direction. */
  lemma AllDirectionsListed()
    ensures forall d :: d in Directions
  {
    forall d
      ensures d in Directions
    {
      match d
      case Up => assert Directions[0] == Up;
      case Down => assert Directions[1] == Down;
      case Left => assert Directions[2] == Left;
      case Right => assert Directions[3] == Right;
    }
  }

  function Rank(d: Direction): nat {
    match d
    case Up => 0
    case Down => 1
    case Left => 2
    case Right => 3
  }

  /** `ds` lists directions in strictly increasing generation order. */
  predicate InGenerationOrder(ds: seq<Direction>) {
    forall a, b :: 0 <= a < b < |ds| ==> Rank(ds[a]) < Rank(ds[b])
  }

  /** The cell next to `p` in direction `d`: the `newX`, `newY` of generateNeighbors. */
  function Step(p: Position, d: Direction): (r: Position)
    ensures (r.row == p.row && (r.col == p.col - 1 || r.col == p.col + 1)) ||
            (r.col == p.col && (r.row == p.row - 1 || r.row == p.row + 1))
    ensures d in {Up, Down} <==> r.col == p.col
    ensures d in {Up, Left} <==> (r.row < p.row || r.col < p.col)
  {
    match d
    case Up => Position(p.row - 1, p.col)
    case Down => Position(p.row + 1, p.col)
    case Left => Position(p.row, p.col - 1)
    case Right => Position(p.row, p.col + 1)
  }

  function Opposite(d: Direction): Direction {
    match d
    case Up => Down
    case Down => Up
    case Left => Right
    case Right => Left
  }

  predicate IsValidPosition(n: nat, p: Position) {
    0 <= p.row && 0 <= p.col && p.row < n && p.col < n
  }

  /** Strict row-major order of cells. */
  predicate Precedes(p: Position, q: Position) {
    p.row < q.row || (p.row == q.row && p.col < q.col)
  }

  function Tile(b: PuzzleBoard, p: Position): int
    requires Valid(b) && IsValidPosition(b.size, p)
  {
    b.tiles[p.row][p.col]
  }

  /** Board equality: the grids agree; `cost` plays no part. */
  predicate Equal(a: PuzzleBoard, b: PuzzleBoard) {
    a.tiles == b.tiles
  }

  /** Equality of valid boards is agreement of size and of every cell, whatever the costs. */
  lemma EqualIffSameCells(a: PuzzleBoard, b: PuzzleBoard)
    requires Valid(a) && Valid(b)
    ensures Equal(a, b) <==>
              a.size == b.size &&
              forall i, j :: 0 <= i < a.size && 0 <= j < a.size ==> a.tiles[i][j] == b.tiles[i][j]
  {
    if a.size == b.size && forall i, j :: 0 <= i < a.size && 0 <= j < a.size ==> a.tiles[i][j] == b.tiles[i][j] {
      Extensionality(a.size, a.tiles, b.tiles);
    }
  }

  /**
    The array constructor: copies the first `size` cells of the first `size`
    rows. Java throws for a negative size, too few rows or a short row; those
    cases give None.
   */
  function New(size: int, initialState: seq<seq<int>>): (r: Option<PuzzleBoard>)
    ensures r.Some? <==>
              0 <= size <= |initialState| && forall i :: 0 <= i < size ==> size <= |initialState[i]|
    ensures r.Some? ==> Valid(r.value) && r.value.size == size && r.value.cost == 0
    ensures r.Some? ==>
              forall i, j :: 0 <= i < size && 0 <= j < size ==> r.value.tiles[i][j] == initialState[i][j]
  {
    if 0 <= size <= |initialState| && forall i :: 0 <= i < size ==> size <= |initialState[i]| then
      Some(PuzzleBoard(size, seq(size, i requires 0 <= i < size => initialState[i][..size]), 0))
    else
      None
  }

  /** The copy constructor: an equal board of the same size whose cost starts at 0. */
  function Copy(other: PuzzleBoard): (r: PuzzleBoard)
    requires Valid(other)
    ensures Valid(r) && r.size == other.size && r.cost == 0
    ensures Equal(r, other)
  {
    var n := other.size;
    var r := PuzzleBoard(n, seq(n, i requires 0 <= i < n => other.tiles[i][..n]), 0);
    EqualIffSameCells(r, other);
    r
  }

  /** Row-major scan for the first blank, starting at cell (i, j). */
  function FindFrom(n: nat, g: Grid, i: nat, j: nat): (r: Option<Position>)
    requires WellShaped(n, g) && i <= n && j <= n
    ensures r.Some? ==> IsValidPosition(n, r.value) && g[r.value.row][r.value.col] == 0
    decreases n - i, n - j
  {
    if i == n then None
    else if j == n then FindFrom(n, g, i + 1, 0)
    else if g[i][j] == 0 then Some(Position(i, j))
    else FindFrom(n, g, i, j + 1)
  }

  /**
    The scan from (i, j) finds nothing exactly when no cell from (i, j) on is
    blank, and otherwise the first blank from (i, j) on.
   */
  lemma {:induction false} FindFromIsFirst(n: nat, g: Grid, i: nat, j: nat)
    requires WellShaped(n, g) && i <= n && j <= n
    ensures FindFrom(n, g, i, j).None? <==>
              forall a, c :: 0 <= a < n && 0 <= c < n && !Precedes(Position(a, c), Position(i, j)) ==> g[a][c] != 0
    ensures FindFrom(n, g, i, j).Some? ==> !Precedes(FindFrom(n, g, i, j).value, Position(i, j))
    ensures FindFrom(n, g, i, j).Some? ==>
              forall a, c ::
                (0 <= a < n && 0 <= c < n && !Precedes(Position(a, c), Position(i, j)) &&
                 Precedes(Position(a, c), FindFrom(n, g, i, j).value)) ==> g[a][c] != 0
    decreases n - i, n - j
  {
    if i == n {
    } else if j == n {
      FindFromIsFirst(n, g, i + 1, 0);
    } else if g[i][j] == 0 {
    } else {
      FindFromIsFirst(n, g, i, j + 1);
    }
  }

  /** The first blank in row-major order; None where Java throws "No empty space found". */
  function FindEmptySpace(b: PuzzleBoard): (r: Option<Position>)
    requires Valid(b)
    ensures r.Some? <==> HasBlank(b.tiles)
    ensures r.Some? ==> IsValidPosition(b.size, r.value) && Tile(b, r.value) == 0
  {
    FindFromIsFirst(b.size, b.tiles, 0, 0);
    FindFrom(b.size, b.tiles, 0, 0)
  }

  /** findEmptySpace returns the first blank in row-major order, and fails only when no cell is blank. */
  lemma FindEmptySpaceIsFirst(b: PuzzleBoard)
    requires Valid(b)
    ensures FindEmptySpace(b).None? <==> forall i, j :: 0 <= i < b.size && 0 <= j < b.size ==> b.tiles[i][j] != 0
    ensures FindEmptySpace(b).Some? ==>
              forall i, j :: 0 <= i < b.size && 0 <= j < b.size && Precedes(Position(i, j), FindEmptySpace(b).value) ==>
                             b.tiles[i][j] != 0
  {
    FindFromIsFirst(b.size, b.tiles, 0, 0);
  }

  /** The grid has exactly one blank. */
  predicate OneBlank(n: nat, g: Grid)
    requires WellShaped(n, g)
  {
    && (exists i, j :: 0 <= i < n && 0 <= j < n && g[i][j] == 0)
    && (forall i, j, k, l ::
          0 <= i < n && 0 <= j < n && 0 <= k < n && 0 <= l < n && g[i][j] == 0 && g[k][l] == 0 ==>
            i == k && j == l)
  }

  /** The grid after the tile at `q` slides into the cell `p` and `q` becomes the blank. */
  function Slide(n: nat, g: Grid, p: Position, q: Position): (r: Grid)
    requires WellShaped(n, g) && IsValidPosition(n, p) && IsValidPosition(n, q)
    ensures WellShaped(n, r)
  {
    SetCell(n, SetCell(n, g, p.row, p.col, g[q.row][q.col]), q.row, q.col, 0)
  }

  /** The directions among `ds`, in their order, whose target cell lies on the board. */
  function ValidMoves(n: nat, p: Position, ds: seq<Direction>): (r: seq<Direction>)
    ensures forall d :: d in r <==> d in ds && IsValidPosition(n, Step(p, d))
    ensures InGenerationOrder(ds) ==> InGenerationOrder(r)
  {
    if |ds| == 0 then []
    else
      var rest := ValidMoves(n, p, ds[1..]);
      assert forall d :: d in ds[1..] ==> d in ds;
      LaterRanks(ds, rest);
      if IsValidPosition(n, Step(p, ds[0])) then [ds[0]] + rest else rest
  }

  /** In a list in generation order, every direction drawn from its tail ranks after its head. */
  lemma LaterRanks(ds: seq<Direction>, later: seq<Direction>)
    requires |ds| > 0
    requires forall d :: d in later ==> d in ds[1..]
    ensures InGenerationOrder(ds) ==> forall k :: 0 <= k < |later| ==> Rank(ds[0]) < Rank(later[k])
  {
    forall k | 0 <= k < |later| && InGenerationOrder(ds)
      ensures Rank(ds[0]) < Rank(later[k])
    {
      assert later[k] in ds[1..];
      var m :| 0 <= m < |ds[1..]| && ds[1..][m] == later[k];
      assert ds[m + 1] == later[k];
    }
  }

  /** The neighbour reached by sliding the blank at `p` one cell in direction `d`. */
  function Move(b: PuzzleBoard, p: Position, d: Direction): (r: PuzzleBoard)
    requires Valid(b) && IsValidPosition(b.size, p) && IsValidPosition(b.size, Step(p, d))
    ensures Valid(r) && r.size == b.size && r.cost == 0
  {
    PuzzleBoard(b.size, Slide(b.size, b.tiles, p, Step(p, d)), 0)
  }

  /** The boards reached by each move of `ds` from the blank at `p`, in order. */
  function MoveAll(b: PuzzleBoard, p: Position, ds: seq<Direction>): (r: seq<PuzzleBoard>)
    requires Valid(b) && IsValidPosition(b.size, p)
    requires forall d :: d in ds ==> IsValidPosition(b.size, Step(p, d))
    ensures |r| == |ds| && forall k :: 0 <= k < |ds| ==> r[k] == Move(b, p, ds[k])
  {
    if |ds| == 0 then [] else [Move(b, p, ds[0])] + MoveAll(b, p, ds[1..])
  }

  /**
    generateNeighbors: for each direction up, down, left, right whose target
    cell is on the board, a fresh board (cost 0) with that tile slid into the
    blank. None where locating the blank throws.
   */
  function Neighbors(b: PuzzleBoard): (r: Option<seq<PuzzleBoard>>)
    requires Valid(b)
    ensures r.None? <==> FindEmptySpace(b).None?
    ensures r.Some? ==>
              forall k :: 0 <= k < |r.value| ==>
                Valid(r.value[k]) && r.value[k].size == b.size && r.value[k].cost == 0
  {
    match FindEmptySpace(b)
    case None => None
    case Some(p) =>
      var moves := ValidMoves(b.size, p, Directions);
      Some(MoveAll(b, p, moves))
  }

  function TilesOf(bs: seq<PuzzleBoard>): (r: seq<Grid>)
    ensures |r| == |bs| && forall k :: 0 <= k < |bs| ==> r[k] == bs[k].tiles
  {
    seq(|bs|, k requires 0 <= k < |bs| => bs[k].tiles)
  }

  lemma TilesOfFirst(bs: seq<PuzzleBoard>)
    requires bs != []
    ensures TilesOf(bs) == [bs[0].tiles] + TilesOf(bs[1..])
  {
    assert TilesOf(bs)[1..] == TilesOf(bs[1..]);
  }

  /** The grids of the neighbours of grid `g` on an `n` x `n` board; none when it has no blank. */
  function NeighborGrids(n: nat, g: Grid): seq<Grid>
    requires WellShaped(n, g)
  {
    match Neighbors(PuzzleBoard(n, g, 0))
    case None => []
    case Some(ns) => TilesOf(ns)
  }

  /** The cost of a board plays no part in its neighbours. */
  lemma NeighborsIgnoreCost(b: PuzzleBoard)
    requires Valid(b)
    ensures Neighbors(b) == Neighbors(PuzzleBoard(b.size, b.tiles, 0))
    ensures Neighbors(b).Some? ==> TilesOf(Neighbors(b).value) == NeighborGrids(b.size, b.tiles)
  {
    var b0 := PuzzleBoard(b.size, b.tiles, 0);
    assert FindEmptySpace(b) == FindEmptySpace(b0);
    if FindEmptySpace(b).Some? {
      var p := FindEmptySpace(b).value;
      var ns := Neighbors(b).value;
      var ns0 := Neighbors(b0).value;
      assert |ns| == |ns0|;
      forall k | 0 <= k < |ns|
        ensures ns[k] == ns0[k]
      {
        var moves := ValidMoves(b.size, p, Directions);
        assert ns[k] == Move(b, p, moves[k]) == Move(b0, p, moves[k]);
      }
      assert ns == ns0;
    }
    assert Neighbors(b) == Neighbors(b0);
  }

  /**
    `h` is `g` with one slide: the blank at `p` takes the tile of the
    orthogonally adjacent cell `q`, which becomes the blank; every other
    cell and the multiset of values are unchanged.
   */
  predicate SlidOnce(n: nat, g: Grid, h: Grid, p: Position, q: Position)
    requires WellShaped(n, g) && WellShaped(n, h)
  {
    && IsValidPosition(n, p) && IsValidPosition(n, q)
    && (exists d :: q == Step(p, d))
    && g[p.row][p.col] == 0
    && h[p.row][p.col] == g[q.row][q.col]
    && h[q.row][q.col] == 0
    && (forall i, j :: 0 <= i < n && 0 <= j < n && Position(i, j) != p && Position(i, j) != q ==>
          h[i][j] == g[i][j])
    && Cells(h) == Cells(g)
  }

  lemma SlideIsSlidOnce(n: nat, g: Grid, p: Position, d: Direction)
    requires WellShaped(n, g) && IsValidPosition(n, p) && IsValidPosition(n, Step(p, d))
    requires g[p.row][p.col] == 0
    ensures SlidOnce(n, g, Slide(n, g, p, Step(p, d)), p, Step(p, d))
  {
    var q := Step(p, d);
    var v := g[q.row][q.col];
    var g1 := SetCell(n, g, p.row, p.col, v);
    var h := Slide(n, g, p, Step(p, d));
    assert q == Step(p, d);
    assert p != q;
    assert g1[q.row][q.col] == v;
    CellsSetCell(n, g, p.row, p.col, v);
    CellsSetCell(n, g1, q.row, q.col, 0);
    assert Cells(h) + multiset{v} == Cells(g) + multiset{v};
    MultisetCancel(Cells(h), Cells(g), v);
  }

  /** Sliding any in-bounds tile into the blank findEmptySpace locates gives one of the neighbours. */
  lemma MoveIsNeighbor(n: nat, g: Grid, p: Position, d: Direction)
    requires WellShaped(n, g) && FindEmptySpace(PuzzleBoard(n, g, 0)) == Some(p) && IsValidPosition(n, Step(p, d))
    ensures Slide(n, g, p, Step(p, d)) in NeighborGrids(n, g)
  {
    var b := PuzzleBoard(n, g, 0);
    var moves := ValidMoves(n, p, Directions);
    AllDirectionsListed();
    assert d in moves;
    var k :| 0 <= k < |moves| && moves[k] == d;
    var ns := Neighbors(b).value;
    assert ns[k] == Move(b, p, d);
    assert NeighborGrids(n, g)[k] == Slide(n, g, p, Step(p, d));
  }

  /**
    Every neighbour is the receiver with one slide of the tile next to the
    blank in an in-bounds direction; the directions used are exactly the
    in-bounds ones, in the order up, down, left, right.
   */
  lemma NeighborsInOrder(b: PuzzleBoard)
    requires Valid(b) && Neighbors(b).Some?
    ensures var p := FindEmptySpace(b).value;
            var ns := Neighbors(b).value;
            var moves := ValidMoves(b.size, p, Directions);
            && |ns| == |moves|
            && InGenerationOrder(moves)
            && (forall d :: d in moves <==> IsValidPosition(b.size, Step(p, d)))
            && (forall k :: 0 <= k < |ns| ==> SlidOnce(b.size, b.tiles, ns[k].tiles, p, Step(p, moves[k])))
  {
    var p := FindEmptySpace(b).value;
    var ns := Neighbors(b).value;
    var moves := ValidMoves(b.size, p, Directions);
    assert InGenerationOrder(Directions);
    AllDirectionsListed();
    forall k | 0 <= k < |ns|
      ensures SlidOnce(b.size, b.tiles, ns[k].tiles, p, Step(p, moves[k]))
    {
      assert moves[k] in moves;
      SlideIsSlidOnce(b.size, b.tiles, p, moves[k]);
    }
  }

  /** Every neighbour grid is one slide of the tile next to a blank into it. */
  lemma NeighborGridIsSlide(n: nat, g: Grid, h: Grid) returns (p: Position, d: Direction)
    requires WellShaped(n, g) && h in NeighborGrids(n, g)
    ensures IsValidPosition(n, p) && IsValidPosition(n, Step(p, d)) && g[p.row][p.col] == 0
    ensures h == Slide(n, g, p, Step(p, d))
    ensures FindEmptySpace(PuzzleBoard(n, g, 0)) == Some(p)
  {
    var b := PuzzleBoard(n, g, 0);
    p := FindEmptySpace(b).value;
    var ns := Neighbors(b).value;
    var moves := ValidMoves(n, p, Directions);
    var k :| 0 <= k < |ns| && ns[k].tiles == h;
    d := moves[k];
    assert d in moves;
  }

  predicate IsCorner(n: nat, p: Position) {
    (p.row == 0 || p.row == n - 1) && (p.col == 0 || p.col == n - 1)
  }

  predicate IsInterior(n: nat, p: Position) {
    0 < p.row < n - 1 && 0 < p.col < n - 1
  }

  function Indicator(c: bool): nat {
    if c then 1 else 0
  }

  /** One valid move for each side of the board that `p` is not on. */
  lemma MovesCount(n: nat, p: Position)
    requires IsValidPosition(n, p)
    ensures |ValidMoves(n, p, Directions)| ==
            Indicator(p.row > 0) + Indicator(p.row < n - 1) + Indicator(p.col > 0) + Indicator(p.col < n - 1)
  {
    assert Directions[1..] == [Down, Left, Right];
    assert Directions[1..][1..] == [Left, Right];
    assert Directions[1..][1..][1..] == [Right];
    assert Directions[1..][1..][1..][1..] == [];
    var m3 := ValidMoves(n, p, Directions[1..][1..][1..]);
    var m2 := ValidMoves(n, p, Directions[1..][1..]);
    var m1 := ValidMoves(n, p, Directions[1..]);
    assert ValidMoves(n, p, []) == [];
    assert |m3| == Indicator(p.col < n - 1);
    assert |m2| == Indicator(p.col > 0) + |m3|;
    assert |m1| == Indicator(p.row < n - 1) + |m2|;
  }

  /** On a board of size at least 2: two neighbours from a corner, three from an edge, four from the interior. */
  lemma NeighborCount(b: PuzzleBoard)
    requires Valid(b) && b.size >= 2 && Neighbors(b).Some?
    ensures var p := FindEmptySpace(b).value;
            var count := |Neighbors(b).value|;
            && (IsCorner(b.size, p) ==> count == 2)
            && (IsInterior(b.size, p) ==> count == 4)
            && (!IsCorner(b.size, p) && !IsInterior(b.size, p) ==> count == 3)
  {
    var p := FindEmptySpace(b).value;
    MovesCount(b.size, p);
    assert |Neighbors(b).value| == |ValidMoves(b.size, p, Directions)|;
  }

  /** Sliding the tile at `q` into the single blank at `p` leaves `q` as the single blank. */
  lemma SlideKeepsOneBlank(n: nat, g: Grid, p: Position, q: Position)
    requires WellShaped(n, g) && OneBlank(n, g) && IsValidPosition(n, p) && IsValidPosition(n, q)
    requires g[p.row][p.col] == 0 && p != q
    ensures OneBlank(n, Slide(n, g, p, q))
    ensures forall i, j :: 0 <= i < n && 0 <= j < n && Slide(n, g, p, q)[i][j] == 0 ==> Position(i, j) == q
  {
    var h := Slide(n, g, p, q);
    var g1 := SetCell(n, g, p.row, p.col, g[q.row][q.col]);
    assert g[q.row][q.col] != 0;
    forall i, j | 0 <= i < n && 0 <= j < n && Position(i, j) != q
      ensures h[i][j] != 0
    {
      if Position(i, j) == p {
        assert h[i][j] == g[q.row][q.col];
      } else {
        assert h[i][j] == g1[i][j] == g[i][j];
        assert g[i][j] != 0;
      }
    }
    assert h[q.row][q.col] == 0;
  }

  /** On a board with one blank, FindEmptySpace finds that blank. */
  lemma FindUniqueBlank(b: PuzzleBoard, p: Position)
    requires Valid(b) && OneBlank(b.size, b.tiles) && IsValidPosition(b.size, p) && Tile(b, p) == 0
    ensures FindEmptySpace(b) == Some(p)
  {
  }

  /** Sliding the tile back from `p` into the new blank at `q` restores the grid. */
  lemma SlideUndo(n: nat, g: Grid, p: Position, q: Position)
    requires WellShaped(n, g) && IsValidPosition(n, p) && IsValidPosition(n, q)
    requires g[p.row][p.col] == 0 && p != q
    ensures Slide(n, Slide(n, g, p, q), q, p) == g
  {
    var h := Slide(n, g, p, q);
    var g1 := SetCell(n, g, p.row, p.col, g[q.row][q.col]);
    assert h[p.row][p.col] == g1[p.row][p.col] == g[q.row][q.col];
    var r := Slide(n, h, q, p);
    var h1 := SetCell(n, h, q.row, q.col, h[p.row][p.col]);
    forall i, j | 0 <= i < n && 0 <= j < n
      ensures r[i][j] == g[i][j]
    {
      if Position(i, j) != p && Position(i, j) != q {
        assert r[i][j] == h1[i][j] == h[i][j] == g1[i][j];
      }
    }
    Extensionality(n, r, g);
  }

  /** The value of cell (i, j) on the solved board: 1, 2, ... in row-major order, blank last. */
  function SolvedCell(n: nat, i: nat, j: nat): int {
    if i == n - 1 && j == n - 1 then 0 else i * n + j + 1
  }

  /** Row `i` of the solved board from column `j` on. */
  function SolvedRow(n: nat, i: nat, j: nat): (r: seq<int>)
    requires j <= n
    ensures |r| == n - j
    ensures forall c :: 0 <= c < n - j ==> r[c] == SolvedCell(n, i, j + c)
    decreases n - j
  {
    if j == n then [] else [SolvedCell(n, i, j)] + SolvedRow(n, i, j + 1)
  }

  /** Rows `i` onwards of the solved board. */
  function SolvedRows(n: nat, i: nat): (r: Grid)
    requires i <= n
    ensures |r| == n - i
    ensures forall a :: 0 <= a < n - i ==> |r[a]| == n
    ensures forall a, c :: 0 <= a < n - i && 0 <= c < n ==> r[a][c] == SolvedCell(n, i + a, c)
    decreases n - i
  {
    if i == n then [] else [SolvedRow(n, i, 0)] + SolvedRows(n, i + 1)
  }

  /** The solved configuration of an `n` x `n` board. */
  function SolvedGrid(n: nat): (r: Grid)
    ensures WellShaped(n, r)
  {
    SolvedRows(n, 0)
  }

  /** Cell (i, j) of the solved board holds its row-major number, the last one the blank. */
  lemma SolvedGridCells(n: nat)
    ensures forall i, j :: 0 <= i < n && 0 <= j < n ==> SolvedGrid(n)[i][j] == SolvedCell(n, i, j)
  {
  }

  /**
    The isSolved scan from cell (i, j), expecting `expected` there: it stops
    at the bottom-right cell, which must be blank, or at the first tile out
    of sequence.
   */
  function ScanSolved(n: nat, g: Grid, i: nat, j: nat, expected: int): bool
    requires WellShaped(n, g) && i <= n && j <= n && expected == i * n + j + 1
    decreases n - i, n - j
  {
    if i == n then true
    else if j == n then
      assert expected == (i + 1) * n + 0 + 1;
      ScanSolved(n, g, i + 1, 0, expected)
    else if i == n - 1 && j == n - 1 then g[i][j] == 0
    else if g[i][j] != expected then false
    else ScanSolved(n, g, i, j + 1, expected + 1)
  }

  /** The scan from (i, j) succeeds exactly when every cell from (i, j) on holds its solved value. */
  lemma {:induction false} ScanSolvedMatches(n: nat, g: Grid, i: nat, j: nat, expected: int)
    requires WellShaped(n, g) && i <= n && j <= n && expected == i * n + j + 1
    ensures ScanSolved(n, g, i, j, expected) <==>
              forall a, c :: 0 <= a < n && 0 <= c < n && !Precedes(Position(a, c), Position(i, j)) ==>
                             g[a][c] == SolvedCell(n, a, c)
    decreases n - i, n - j
  {
    if i == n {
    } else if j == n {
      assert expected == (i + 1) * n + 0 + 1;
      ScanSolvedMatches(n, g, i + 1, 0, expected);
    } else if i == n - 1 && j == n - 1 {
    } else if g[i][j] != expected {
    } else {
      ScanSolvedMatches(n, g, i, j + 1, expected + 1);
    }
  }

  /** isSolved: the board reads 1, 2, ..., size*size - 1 in row-major order with the blank last. */
  function IsSolved(b: PuzzleBoard): (r: bool)
    requires Valid(b)
    ensures r <==> b.tiles == SolvedGrid(b.size)
  {
    var r := ScanSolved(b.size, b.tiles, 0, 0, 1);
    ScanSolvedMatches(b.size, b.tiles, 0, 0, 1);
    SolvedGridCells(b.size);
    assert r ==> b.tiles == SolvedGrid(b.size) by {
      if r {
        Extensionality(b.size, b.tiles, SolvedGrid(b.size));
      }
    }
    r
  }

  /** A blank anywhere but the bottom-right cell makes a board unsolved. */
  lemma MisplacedBlankIsUnsolved(b: PuzzleBoard, p: Position)
    requires Valid(b) && IsValidPosition(b.size, p) && Tile(b, p) == 0
    requires p != Position(b.size - 1, b.size - 1)
    ensures !IsSolved(b)
  {
    assert p.row * b.size >= 0;
    SolvedGridCells(b.size);
    assert SolvedGrid(b.size)[p.row][p.col] == p.row * b.size + p.col + 1 > 0;
    assert b.tiles[p.row][p.col] != SolvedGrid(b.size)[p.row][p.col];
  }
}

=== FILE: search_space.dfy ===
/**
  The implicit graph both searches of PuzzleGraph.java explore: grids
  connected by one slide, slide paths, reachability, and the value a search
  returns in place of the Java code's console report.
 */
module SearchSpace {
  import opened Wrappers
  import opened Grids
  import opened Boards

  /**
    `h` is `g` after one slide: the tile of a cell next to the blank that
    findEmptySpace locates moves into it, and that cell becomes the blank.
    This is the move rule stated on its own; SlideIffNeighbor shows it is
    exactly what generateNeighbors produces.
   */
  ghost predicate IsSlide(n: nat, g: Grid, h: Grid) {
    && WellShaped(n, g)
    && FindEmptySpace(PuzzleBoard(n, g, 0)).Some?
    && var p := FindEmptySpace(PuzzleBoard(n, g, 0)).value;
       exists d :: IsValidPosition(n, Step(p, d)) && h == Slide(n, g, p, Step(p, d))
  }

  /** The slide relation of `n` x `n` boards as a value, so that paths can be stated once for any relation. */
  ghost function SlideRel(n: nat): (Grid, Grid) -> bool {
    (g, h) => IsSlide(n, g, h)
  }

  /** A non-empty sequence in which each element is related to the next. */
  ghost predicate IsPath<T>(rel: (T, T) -> bool, p: seq<T>) {
    |p| >= 1 && forall k :: 0 <= k < |p| - 1 ==> rel(p[k], p[k + 1])
  }

  /** `to` is reached from `from` by exactly `moves` slides. */
  ghost predicate ReachableIn(n: nat, from: Grid, to: Grid, moves: nat) {
    exists p :: IsPath(SlideRel(n), p) && |p| == moves + 1 && p[0] == from && p[moves] == to
  }

  ghost predicate Reachable(n: nat, from: Grid, to: Grid) {
    exists moves: nat :: ReachableIn(n, from, to, moves)
  }

  lemma ReachableStart(n: nat, g: Grid)
    ensures ReachableIn(n, g, g, 0)
  {
    assert IsPath(SlideRel(n), [g]);
  }

  lemma PathAppend<T>(rel: (T, T) -> bool, p: seq<T>, x: T)
    requires IsPath(rel, p) && rel(p[|p| - 1], x)
    ensures IsPath(rel, p + [x])
  {
    var p' := p + [x];
    forall k | 0 <= k < |p'| - 1
      ensures rel(p'[k], p'[k + 1])
    {
      if k < |p| - 1 {
        assert p'[k] == p[k] && p'[k + 1] == p[k + 1];
      } else {
        assert p'[k] == p[|p| - 1] && p'[k + 1] == x;
      }
    }
  }

  /** One more slide extends a path by one move. */
  lemma ReachableStep(n: nat, from: Grid, g: Grid, h: Grid, moves: nat)
    requires ReachableIn(n, from, g, moves) && IsSlide(n, g, h)
    ensures ReachableIn(n, from, h, moves + 1)
  {
    var p :| IsPath(SlideRel(n), p) && |p| == moves + 1 && p[0] == from && p[moves] == g;
    PathAppend(SlideRel(n), p, h);
    var p' := p + [h];
    assert p'[0] == from && p'[moves + 1] == h;
  }

  /** The only grid reached in no moves is the start. */
  lemma ReachableInZero(n: nat, from: Grid, to: Grid)
    requires ReachableIn(n, from, to, 0)
    ensures to == from
  {
    var p :| IsPath(SlideRel(n), p) && |p| == 1 && p[0] == from && p[0] == to;
  }

  /** The grid a path of `moves > 0` slides ends at is one slide away from a grid reached in `moves - 1`. */
  lemma ReachablePrevious(n: nat, from: Grid, to: Grid, moves: nat) returns (prev: Grid)
    requires ReachableIn(n, from, to, moves) && moves > 0
    ensures ReachableIn(n, from, prev, moves - 1) && IsSlide(n, prev, to)
  {
    var p :| IsPath(SlideRel(n), p) && |p| == moves + 1 && p[0] == from && p[moves] == to;
    prev := p[moves - 1];
    var p' := p[..moves];
    forall k | 0 <= k < |p'| - 1
      ensures SlideRel(n)(p'[k], p'[k + 1])
    {
      assert p'[k] == p[k] && p'[k + 1] == p[k + 1];
    }
    assert IsPath(SlideRel(n), p') && p'[0] == from && p'[moves - 1] == prev;
    assert SlideRel(n)(p[moves - 1], p[moves]);
  }

  /** Every neighbour generateNeighbors produces is a slide. */
  lemma NeighborIsSlide(n: nat, g: Grid, h: Grid)
    requires WellShaped(n, g) && h in NeighborGrids(n, g)
    ensures IsSlide(n, g, h)
  {
    var p, d := NeighborGridIsSlide(n, g, h);
  }

  /** Every slide is among the neighbours generateNeighbors produces. */
  lemma SlideIsNeighbor(n: nat, g: Grid, h: Grid)
    requires IsSlide(n, g, h)
    ensures h in NeighborGrids(n, g)
  {
    var p, d := SlideWitness(n, g, h);
    MoveIsNeighbor(n, g, p, d);
  }

  /** The slide rule and generateNeighbors agree on every well-shaped grid. */
  lemma SlideIffNeighbor(n: nat, g: Grid, h: Grid)
    requires WellShaped(n, g)
    ensures IsSlide(n, g, h) <==> h in NeighborGrids(n, g)
  {
    if h in NeighborGrids(n, g) {
      NeighborIsSlide(n, g, h);
    }
    if IsSlide(n, g, h) {
      SlideIsNeighbor(n, g, h);
    }
  }

  /** A slide names the blank findEmptySpace locates and the direction of the tile moved into it. */
  lemma SlideWitness(n: nat, g: Grid, h: Grid) returns (p: Position, d: Direction)
    requires IsSlide(n, g, h)
    ensures WellShaped(n, g) && IsValidPosition(n, p) && IsValidPosition(n, Step(p, d))
    ensures FindEmptySpace(PuzzleBoard(n, g, 0)) == Some(p) && g[p.row][p.col] == 0
    ensures h == Slide(n, g, p, Step(p, d))
  {
    p := FindEmptySpace(PuzzleBoard(n, g, 0)).value;
    d :| IsValidPosition(n, Step(p, d)) && h == Slide(n, g, p, Step(p, d));
  }

  /** Every slide target is well shaped and keeps the grid's values. */
  lemma SlideKeepsShapeAndCells(n: nat, g: Grid, h: Grid)
    requires IsSlide(n, g, h)
    ensures WellShaped(n, h) && Cells(h) == Cells(g)
  {
    var p := FindEmptySpace(PuzzleBoard(n, g, 0)).value;
    var d :| IsValidPosition(n, Step(p, d)) && h == Slide(n, g, p, Step(p, d));
    SlideIsSlidOnce(n, g, p, d);
  }

  /** Every slide target has a blank: the cell the tile left. */
  lemma SlideTargetHasBlank(n: nat, g: Grid, h: Grid)
    requires IsSlide(n, g, h)
    ensures WellShaped(n, h) && HasBlank(h)
  {
    var p := FindEmptySpace(PuzzleBoard(n, g, 0)).value;
    var d :| IsValidPosition(n, Step(p, d)) && h == Slide(n, g, p, Step(p, d));
    var q := Step(p, d);
    SlideIsSlidOnce(n, g, p, d);
    assert h[q.row][q.col] == 0;
  }

  /** Sliding back undoes a slide: on a board with one blank, the grid is a slide of each of its slides. */
  lemma SlideBack(n: nat, g: Grid, p: Position, d: Direction)
    requires WellShaped(n, g) && OneBlank(n, g) && IsValidPosition(n, p) && IsValidPosition(n, Step(p, d))
    requires g[p.row][p.col] == 0
    ensures var h := Slide(n, g, p, Step(p, d));
            OneBlank(n, h) && IsSlide(n, h, g)
  {
    var q := Step(p, d);
    var h := Slide(n, g, p, q);
    SlideKeepsOneBlank(n, g, p, q);
    FindUniqueBlank(PuzzleBoard(n, h, 0), q);
    var back := Opposite(d);
    assert Step(q, back) == p;
    SlideUndo(n, g, p, q);
    assert g == Slide(n, h, q, Step(q, back));
  }

  /** Moves are reversible: a board with one blank is among the neighbours of each of its neighbours. */
  lemma NeighborsReversible(b: PuzzleBoard)
    requires Valid(b) && OneBlank(b.size, b.tiles)
    ensures Neighbors(b).Some?
    ensures forall k :: 0 <= k < |Neighbors(b).value| ==>
              var h := Neighbors(b).value[k];
              OneBlank(h.size, h.tiles) && b.tiles in NeighborGrids(h.size, h.tiles)
  {
    var p := FindEmptySpace(b).value;
    var ns := Neighbors(b).value;
    var moves := ValidMoves(b.size, p, Directions);
    forall k | 0 <= k < |ns|
      ensures OneBlank(ns[k].size, ns[k].tiles) && b.tiles in NeighborGrids(ns[k].size, ns[k].tiles)
    {
      assert moves[k] in moves;
      assert ns[k] == Move(b, p, moves[k]);
      SlideBack(b.size, b.tiles, p, moves[k]);
      SlideIsNeighbor(b.size, ns[k].tiles, b.tiles);
    }
  }

  /** Every slide out of a member of `s` lands in `s`. */
  ghost predicate ClosedUnderSlides(n: nat, s: set<Grid>) {
    forall g, h {:trigger IsSlide(n, g, h)} :: g in s && IsSlide(n, g, h) ==> h in s
  }

  /**
    A set that holds `start` and every slide of each of its members holds
    every grid reachable from `start`.
   */
  lemma ClosedSetHoldsReachable(n: nat, start: Grid, s: set<Grid>)
    requires start in s
    requires ClosedUnderSlides(n, s)
    ensures forall g :: Reachable(n, start, g) ==> g in s
  {
    forall g | Reachable(n, start, g)
      ensures g in s
    {
      var moves: nat :| ReachableIn(n, start, g, moves);
      var p :| IsPath(SlideRel(n), p) && |p| == moves + 1 && p[0] == start && p[moves] == g;
      forall x, y | x in s && SlideRel(n)(x, y)
        ensures y in s
      {
        assert IsSlide(n, x, y);
      }
      PathStaysInClosedSet(SlideRel(n), p, s, moves);
    }
  }

  lemma {:induction false} PathStaysInClosedSet<T>(rel: (T, T) -> bool, p: seq<T>, s: set<T>, k: nat)
    requires IsPath(rel, p) && p[0] in s && k < |p|
    requires forall x, y :: x in s && rel(x, y) ==> y in s
    ensures p[k] in s
  {
    if k > 0 {
      PathStaysInClosedSet(rel, p, s, k - 1);
      assert rel(p[k - 1], p[k]);
    }
  }

  /**
    Along a path of a relation that keeps `inv` and lowers `f` by at most one
    per step, `f` drops by at most the number of steps taken.
   */
  lemma {:induction false} PathBound<T>(rel: (T, T) -> bool, p: seq<T>, inv: T -> bool, f: T -> int, k: nat)
    requires IsPath(rel, p) && inv(p[0]) && k < |p|
    requires forall x, y :: inv(x) && rel(x, y) ==> inv(y) && f(x) <= 1 + f(y)
    ensures inv(p[k]) && f(p[0]) <= k + f(p[k])
  {
    if k > 0 {
      PathBound(rel, p, inv, f, k - 1);
      assert rel(p[k - 1], p[k]);
    }
  }

  predicate NoDuplicates<T(==)>(s: seq<T>) {
    forall a, b :: 0 <= a < b < |s| ==> s[a] != s[b]
  }

  /** What a search reports; the Java code prints it instead. */
  datatype Outcome =
    | Solved(board: PuzzleBoard, statesProcessed: nat)
      /** the search stopped at a popped board for which isSolved holds */
    | NoSolution(statesProcessed: nat)
      /** the queue or open set emptied: "No solution found." */
    | NoEmptySpace(statesProcessed: nat)
      /** generateNeighbors threw: a popped board has no blank */
    | OutOfFuel(statesProcessed: nat)
      /** the move budget given to A* ran out before either of the above */

  /** The solver object: it holds only the board the next search starts from. */
  datatype PuzzleGraph = PuzzleGraph(initialState: PuzzleBoard)

  /**
    setInitialState replaces the start board. The solver holds no other
    state, so nothing of the previous start board survives the call.
   */
  function SetInitialState(graph: PuzzleGraph, initialState: PuzzleBoard): (r: PuzzleGraph)
    ensures r.initialState == initialState
  {
    PuzzleGraph(initialState)
  }
}

=== FILE: wrappers.dfy ===
/** Optional values, used where the Java code throws or returns nothing. */
module Wrappers {

  datatype Option<+T> = None | Some(value: T)
}
